=== FILE: README.md ===
# Session engine of a Redis server in Ruby — a Dafny model

This project models the per-connection session engine of a Redis server
written in Ruby on EventMachine (`lib/redis/protocol.rb`). It covers:

- **`Redis::Watcher`**: the token that a connection registers under every key
  it WATCHes, in the registry shared by all connections (`database.watchers`).
  `bind` records each `(database, key)` pair once and pushes the token onto
  that key's list. `unbind` takes the token off every list it joined and makes
  it inert for good. A write to a watched key fires the token, which runs
  `unbind`.
- **`Redis::Protocol`**: the session state (`@multi`, `@watcher`,
  `@deferred`), the session commands WATCH, UNWATCH, MULTI, DISCARD and EXEC,
  and `send_redis` with its single slot for an outstanding asynchronous
  result. It also covers `call_redis`, which dispatches by upper-cased name
  and turns every exception except `CloseConnection` into one `-ERR` line;
  the frame loop `on_read`, which queues or dispatches each frame; and the
  connection teardown `unbind`.
- **The `Response` constants** `+OK`, `+PONG`, `*-1` and `+QUEUED`, the
  integer reply `:n`, and the `*N` header of EXEC.

The model is a functional state machine. A `State` is immutable and holds:

- the session fields;
- the shared registry;
- every chunk written so far;
- the log of asynchronous results the session cancelled.

Each command is a pure function from a state to a new state and an
`Outcome`: a returned value, a raised fault or `CloseConnection`. The
registry invariant `Watchers.Wf` says a token is listed under exactly the
keys it watches while it is bound, and under none afterwards. `Protocol.Valid`
adds that the session's watcher is known and the queue holds only queueable
frames. Every operation preserves both, and no operation revives an unbound
token (`Watchers.Persists`).

Modules:

- `Basics`: option type, ASCII upper-casing.
- `Replies`: reply constants, values, chunks, decimal text.
- `Watchers`: `Redis::Watcher` and the registry.
- `Protocol`: `Redis::Protocol`.
- `Properties`: lemmas that relate several operations. Their partner for
  EXEC is a reference reading of the queued frames and the handler table
  (`ExecReply`, `ExecReplies`).
- `Scenarios`: whole reads of frames from a fresh or open session.

## Model

| member | source | states |
|---|---|---|
| Replies.ErrorLine | lib/redis/protocol.rb:145 | an exception becomes exactly `-ERR `, its class name, `: `, its message and CRLF, each read back at its position |
| Replies.IntegerLine | lib/redis/protocol.rb:83 | an Integer reply is `:`, a canonical decimal text (no leading zero, no `-0`), CRLF, and that text reads back as the same integer; by `Replies.CanonicalUnique` it is the one text `Integer#to_s` writes |
| Replies.Decimal | lib/redis/protocol.rb:83 | `Integer#to_s` writes canonical text: `0`, or an optional minus sign and digits that do not start with a zero |
| Replies.CanonicalUnique | lib/redis/protocol.rb:83 | canonical text that reads back as `n` is exactly the decimal text of `n`, so canonical form and round trip together pin the written text |
| Replies.DigitsText | lib/redis/protocol.rb:83 | a run of digits with no leading zero is the decimal text of the value it reads as |
| Replies.DecimalRoundTrip | lib/redis/protocol.rb:83 | the decimal text of any integer, negative ones included, parses back to that integer |
| Replies.CountLine | lib/redis/protocol.rb:124 | EXEC's header is the integer line of the queue length with `*` in place of `:`, and the count reads back as the queue length from canonical text (`*3`, never `*03`) |
| Basics.Upcase | lib/redis/protocol.rb:140 | upper-casing keeps the length, turns every lower-case letter into its capital and changes no other character |
| Basics.UpcaseIdempotent | lib/redis/protocol.rb:153 | upper-casing an already upper-cased name changes nothing |
| Watchers.NewWatcher | lib/redis/protocol.rb:23-28 | a new token has a fresh identity, is bound, watches nothing, and keeps the registry well formed |
| Watchers.BindKey | lib/redis/protocol.rb:32-37 | one loop round records the pair only if it is not yet recorded, appending it, and no other token changes |
| Watchers.BindKeyWf | lib/redis/protocol.rb:32-37 | one loop round keeps the registry well formed: the token is listed under the key exactly once |
| Watchers.BindAll | lib/redis/protocol.rb:32-37 | the loop over the keys extends the recorded pairs at the end, and a pair ends up recorded iff it was recorded before or its key was given |
| Watchers.Bind | lib/redis/protocol.rb:30-38 | an unbound token changes nothing; a bound one records exactly the given keys not yet recorded, and every other token stays as it was |
| Watchers.BindWf | lib/redis/protocol.rb:30-38 | bind keeps the registry well formed and forgets no token; every key list holds each token at most once, however often a key is repeated |
| Watchers.BindLists | lib/redis/protocol.rb:30-38 | after bind on a live token, the token is listed under every key it was given |
| Watchers.Without | lib/redis/protocol.rb:45 | `delete_if` removes every copy of the token and keeps the multiplicity of every other element |
| Watchers.Detach | lib/redis/protocol.rb:42-46 | only the lists of the recorded pairs lose the token; every other list is untouched and no list is created |
| Watchers.Unbind | lib/redis/protocol.rb:40-48 | an unbound token changes nothing; otherwise the token leaves every list of a recorded pair, no other token's count changes, and it becomes unbound |
| Watchers.UnbindWf | lib/redis/protocol.rb:40-48 | unbind keeps the registry well formed and afterwards the token is listed under no key at all |
| Watchers.UnbindIdempotent | lib/redis/protocol.rb:41 | a second unbind of the same token is a no-op |
| Protocol.Init | lib/redis/protocol.rb:60-66 | a new connection has no queue, no watcher, no outstanding result and no output |
| Protocol.Send | lib/redis/protocol.rb:74-87 | a different asynchronous result cancels the one in the slot and takes its place, and the same one changes nothing; a Response writes its chunks in order, an Integer writes `:n`, anything else one encoded value; queue, watcher and registry never change |
| Protocol.SendDeferredTwice | lib/redis/protocol.rb:75-77 | two different asynchronous results in a row cancel the first exactly once and leave the second outstanding; resending the second is a no-op |
| Protocol.Teardown | lib/redis/protocol.rb:68-71 | connection teardown cancels the outstanding result and unbinds the watcher (the registry becomes exactly `Unbind` of it, so no other token changes); output and session fields are kept |
| Protocol.Invalidate | lib/redis/protocol.rb:26-27 | firing a token (callback or errback) makes the registry exactly `Unbind` of that token, so it is inert and listed nowhere while every other token is untouched; the session itself does not change |
| Protocol.Unwatch | lib/redis/protocol.rb:95-101 | UNWATCH drops the watcher after unbinding it, the registry becoming exactly `Unbind` of that token; with no watcher it changes nothing |
| Protocol.Watch | lib/redis/protocol.rb:89-93 | WATCH replies `+OK` and keeps an existing token (even an unbound one). Otherwise it binds a fresh token that watches exactly the given keys and is listed under each of them; no other token changes |
| Protocol.Multi | lib/redis/protocol.rb:103-107 | MULTI opens an empty queue with `+OK`, or raises the nesting error and keeps the open queue |
| Protocol.Discard | lib/redis/protocol.rb:109-113 | DISCARD releases any watcher, drops any queue and replies `+OK`, whether or not a transaction was open |
| Protocol.Rescue | lib/redis/protocol.rb:141-145 | every raised fault becomes a one-line `-ERR` Response; `CloseConnection` and values pass unchanged |
| Protocol.Serve | lib/redis/protocol.rb:140 | WATCH is exactly the session's watch of the given keys, and UNWATCH with no arguments is exactly the unwatch followed by `+OK`; any other name goes to its handler without touching the session, and a name with no handler raises |
| Protocol.Absorb | lib/redis/protocol.rb:128-133 | inside EXEC an asynchronous result is cancelled and replaced by one nil reply, without touching the slot; any other value is sent |
| Protocol.Round | lib/redis/protocol.rb:126-134 | one EXEC round keeps the session valid, the queue and the connection, and only appends output |
| Protocol.Drain | lib/redis/protocol.rb:126-134 | the EXEC loop keeps the session valid, the queue and the connection, and only appends output |
| Protocol.Commit | lib/redis/protocol.rb:124-136 | the first chunk written is `*N` for the N queued frames; on normal completion the queue is gone and the value is the empty Response; `CloseConnection` escapes with the queue still in place |
| Protocol.Exec | lib/redis/protocol.rb:115-137 | a fired watcher gives `*-1`, drops queue and watcher and runs nothing; otherwise any watcher is released and a missing queue raises, else the queue is committed; the watcher held on entry ends unbound |
| Protocol.Invoke | lib/redis/protocol.rb:140 | MULTI, EXEC and DISCARD given arguments raise an arity error and change nothing; every other name is served |
| Protocol.Dispatch | lib/redis/protocol.rb:139-146 | nothing raised escapes dispatch; a nested MULTI yields exactly the nesting error line; a handler name leaves the session unchanged and yields the handler's rescued outcome |
| Protocol.Act | lib/redis/protocol.rb:157-162 | a frame that is dispatched keeps the session valid and only appends output; on `CloseConnection` it closes at once only if the buffer was empty and nothing was written, and after writing otherwise |
| Protocol.Step | lib/redis/protocol.rb:151-165 | with a queue open, a non-exempt frame is appended and answered `+QUEUED`; an empty frame writes one `-ERR` and stops the loop; a stop on a non-empty frame closes at once only if the buffer was empty and the frame wrote nothing, and after writing otherwise |
| Protocol.OnRead | lib/redis/protocol.rb:149-166 | a read that does not stop leaves nothing with the reader and the connection state as it was; one that stops hands back fewer frames than it was given (which ones is stated by `Properties.OnReadRest`) |
| Properties.RoundReference | lib/redis/protocol.rb:126-134 | an EXEC round on a handler command writes exactly its reference reply and cancels exactly its asynchronous result |
| Properties.AbsorbReference | lib/redis/protocol.rb:128-133 | absorbing the rescued outcome of a handler writes its reference reply and logs its asynchronous result |
| Properties.RoundWatch | lib/redis/protocol.rb:89-93 | a WATCH queued and then run by EXEC is exactly the session's watch of its keys followed by `+OK`, and the loop goes on |
| Properties.RoundUnwatch | lib/redis/protocol.rb:95-101 | a queued UNWATCH run by EXEC is exactly the unwatch plus `+OK`, or with arguments exactly the arity error line and no other change |
| Properties.RoundQueued | lib/redis/protocol.rb:126-134 | one EXEC round on any queued frame that does not close writes exactly its reference reply and cancels exactly its asynchronous result; only watcher and registry may change besides, and not for a handler command |
| Properties.DrainQueue | lib/redis/protocol.rb:126-134 | draining a queue runs each frame once, in order: output grows by exactly the reference replies (WATCH and UNWATCH included) and the cancel log by exactly the asynchronous results; nothing else changes but watcher and registry, which a queue of handler commands leaves alone |
| Properties.DrainSingle | lib/redis/protocol.rb:126-134 | a queue of one frame drains in exactly one round |
| Properties.ExecQueue | lib/redis/protocol.rb:115-137 | EXEC with no watcher or a live one writes `*N` then the reference replies in queue order and leaves no queue; with only handler commands queued it also leaves no watcher |
| Properties.ExecFrame | lib/redis/protocol.rb:157 | an EXEC frame whose EXEC returns the empty Response writes nothing beyond what EXEC wrote |
| Properties.ExecCloseWaits | lib/redis/protocol.rb:124-135 | an EXEC whose queue raises `CloseConnection` stops the loop and closes after writing, because its own `*N` is still buffered; the queue stays in place |
| Properties.ExecCommits | lib/redis/protocol.rb:115-137 | an EXEC frame in that situation writes `*N` and one reference reply per queued frame in queue order, cancels their asynchronous results, drops the queue, and the loop goes on; with only handler commands queued the watcher is released |
| Properties.OnReadSplit | lib/redis/protocol.rb:149-159 | handling frames in one read or split over two reads gives the same session, the second read starting with an empty buffer only if the first wrote nothing; after a stop the remaining frames stay with the reader |
| Properties.QueueWhileOpen | lib/redis/protocol.rb:153-155 | with a queue open, a non-exempt frame (any letter case) is appended to the end unexecuted and answered with exactly `+QUEUED` |
| Properties.NestedMulti | lib/redis/protocol.rb:103-107 | MULTI inside a transaction is not queued; it writes exactly the nesting error and leaves the queue as it was |
| Properties.OpenMulti | lib/redis/protocol.rb:103-107 | MULTI with no open transaction installs an empty queue and writes `+OK` |
| Properties.HandlerFailure | lib/redis/protocol.rb:139-146 | a handler that raises, or a name with no handler, writes exactly one `-ERR <class>: <message>` line, changes nothing else, and the loop goes on |
| Properties.HandlerReply | lib/redis/protocol.rb:157 | a handler that returns a value has exactly that value sent: its chunks are written, or an asynchronous result takes the single deferred slot; nothing else changes and the loop goes on |
| Properties.DeferredTwice | lib/redis/protocol.rb:75-77 | two handler frames in one read that return different asynchronous results: the first is cancelled, the second holds the slot, and nothing is written |
| Properties.ReplyThenClose | lib/redis/protocol.rb:160-162 | a reply followed by `CloseConnection` in the same read writes the reply and then closes after writing, even if the buffer was empty when the read began |
| Properties.ClosesOnlyWhenFlushed | lib/redis/protocol.rb:160-162 | a read closes the connection at once only if the buffer was empty before it and the read wrote nothing |
| Properties.HandlerClose | lib/redis/protocol.rb:160-162 | `CloseConnection` writes nothing, stops the loop, and closes at once on an empty buffer or after writing otherwise |
| Properties.CloseStopsRead | lib/redis/protocol.rb:149-162 | frames after a `CloseConnection` in the same read are never dispatched and go back to the reader untouched |
| Properties.ExecWithoutMulti | lib/redis/protocol.rb:115-124 | EXEC with no open transaction and no fired watcher releases any watcher and writes one `-ERR` line for the missing queue |
| Properties.ExecInvalidated | lib/redis/protocol.rb:115-122 | EXEC with a fired watcher writes exactly `*-1`, runs nothing, and drops queue and watcher, whether or not a transaction was open |
| Properties.DiscardAnyTime | lib/redis/protocol.rb:109-113 | DISCARD as a frame releases the watcher, drops any queue and writes `+OK`, open transaction or not |
| Properties.WatchAfterInvalidation | lib/redis/protocol.rb:89-93 | WATCH on a session whose watcher has fired reuses that token, which ignores the new keys: registry and session are unchanged |
| Properties.UnwatchFrame | lib/redis/protocol.rb:95-101 | UNWATCH as a frame outside a transaction releases the watcher and writes `+OK` |
| Properties.UnwatchTwice | lib/redis/protocol.rb:95-101 | two UNWATCH frames both write `+OK`, and the second changes nothing else |
| Properties.OnReadRest | lib/redis/protocol.rb:149-159 | the frames a stopped read hands back are exactly a proper suffix of the read: those after the stopping frame, in arrival order |
| Properties.WatchFrame | lib/redis/protocol.rb:89-93 | WATCH as a frame outside MULTI is exactly the session's watch plus `+OK`; on a session that already holds a token it keeps that token and rebinds it to the given keys |
| Properties.WatchFresh | lib/redis/protocol.rb:89-93 | WATCH as a frame on a session with no watcher writes `+OK` and creates a fresh live token listed under every key given |
| Scenarios.QueueStep | lib/redis/protocol.rb:153-155 | reading a queueable frame equals reading the rest from the state with that frame queued and acknowledged, the acknowledgement still buffered |
| Scenarios.MultiStep | lib/redis/protocol.rb:103-107 | reading MULTI outside a transaction equals reading the rest from the state with an empty queue and `+OK` written and still buffered |
| Scenarios.WatchOnly | lib/redis/protocol.rb:89-93 | on a fresh connection, the read `WATCH key` writes only `+OK` and lists a fresh live token under the key |
| Scenarios.StaleExec | lib/redis/protocol.rb:116-122 | EXEC read after the watcher fired writes `*-1`, cancels nothing and leaves no queue or watcher |
| Scenarios.StaleTransaction | lib/redis/protocol.rb:151-158 | with a queue open and the watcher fired, a read of queueable frames and then EXEC writes one `+QUEUED` per frame and `*-1`; none of the frames runs |
| Scenarios.AbortedTransaction | lib/redis/protocol.rb:151-158 | MULTI, queueable frames and EXEC after the watcher fired write `+OK`, one `+QUEUED` per frame and `*-1`, and cancel nothing |
| Scenarios.CommitQueuedWatch | lib/redis/protocol.rb:115-136 | EXEC on a queue holding only WATCH, with no watcher: `*1` and `+OK`, the queue dropped, and the session exactly as that WATCH leaves it |
| Scenarios.ExecQueuedWatch | lib/redis/protocol.rb:115-136 | that EXEC as a frame leaves a fresh live watcher on the key, created after EXEC's own release of the watcher, and the loop goes on |
| Scenarios.QueueWatch | lib/redis/protocol.rb:151-155 | on a fresh connection, MULTI and WATCH leave the WATCH queued behind `+OK` and `+QUEUED` |
| Scenarios.WatchInsideTransaction | lib/redis/protocol.rb:151-162 | on a fresh connection, MULTI, WATCH and EXEC write `+OK`, `+QUEUED`, `*1`, `+OK`, cancel nothing, leave no queue, and leave a fresh live watcher listed under the key |
| Scenarios.UnwatchWithoutWatch | lib/redis/protocol.rb:95-101 | on a fresh connection, two UNWATCH frames write `+OK` twice and leave the registry untouched |

## Left out

- Frame decoding by the reader (`reader.rb`) is not part of this model. A read is given as the sequence of frames the reader yields, and `OnRead` hands back the frames it did not consume.
- The base sender's encodings for strings, nil and arrays (`sender.rb`) are not part of this model. Such replies are abstract `Encoded` chunks; nil is the token `NilReply`.
- EventMachine's `Deferrable` scheduling is left out, and so is the code that fires watchers when a key is written. A fired watcher is the explicit event `Protocol.Invalidate`. `Deferrable#unbind` sent to a handler's asynchronous result is an entry in the session's cancel log.
- Socket I/O is left out (`close`, `should_close_after_writing`, `output_buffer_size`). The connection is a three-valued flag. Whether the output buffer was empty when a read began is an input. Every chunk written during the read is taken to stay buffered until the read ends, so `output_buffer_size.zero?` holds at a close exactly when the input says empty and nothing has been written since.
- Ruby's reflective `send` is a finite handler table from upper-case names to outcomes. Handlers are pure functions of their arguments, so the data commands and the `@database` storage they act on are left out.
- Exception texts: the class names are Ruby's. The messages of Ruby-generated errors (the arity error, the nil receiver) are approximations, with the receiver's inspect text elided.
- Logging (commented out in the source) is left out.
- Basics.Upcase: changes only the ASCII letters, because Ruby's full Unicode case mapping is outside the model.
- Properties.ExecCommits: the replies are stated for queues whose frames do not raise `CloseConnection`; that case is `Properties.ExecCloseWaits`. For a queue with WATCH or UNWATCH in it, the watcher and registry after the whole queue are not stated, because they depend on how those frames interleave; each round's effect is stated exactly by `Properties.RoundWatch` and `Properties.RoundUnwatch`.
- Protocol.Round: its contract states only what a round keeps. Its output is stated by `Properties.RoundQueued`.
- Protocol.Drain: its contract states only what the loop keeps. Its output is stated by `Properties.DrainQueue`.
- A read whose frames run a committed transaction to completion (WATCH, MULTI, queued frames, EXEC with a live watcher) is proved one frame at a time (`Properties.ExecCommits`, `Scenarios.QueueStep`), not as one whole-read lemma.

=== FILE: basics.dfy ===
/** Small shared vocabulary: an optional value, ASCII upper-casing as used
    for command names, and "each element at most once" for lists. */
module Basics {

  datatype Option<+T> = None | Some(value: T)

  /** Upper-case one character; only the ASCII letters a-z change. */
  function UpChar(c: char): char
  {
    if 'a' <= c <= 'z' then (c as int - 'a' as int + 'A' as int) as char else c
  }

  predicate IsLower(c: char)
  {
    'a' <= c <= 'z'
  }

  /** `String#upcase` restricted to ASCII: every lower-case letter becomes its
      capital, every other character is kept, and the length is preserved. */
  function Upcase(s: string): (r: string)
    ensures |r| == |s|
    ensures forall i :: 0 <= i < |r| ==> !IsLower(r[i])
    ensures forall i :: 0 <= i < |s| && !IsLower(s[i]) ==> r[i] == s[i]
    ensures forall i :: 0 <= i < |s| && IsLower(s[i]) ==> r[i] as int == s[i] as int - 32
  {
    seq(|s|, i requires 0 <= i < |s| => UpChar(s[i]))
  }

  /** A string with no lower-case letter is its own upper-case form. */
  lemma UpcaseOfUpper(s: string)
    requires forall i :: 0 <= i < |s| ==> !IsLower(s[i])
    ensures Upcase(s) == s
  {
    assert forall i :: 0 <= i < |s| ==> Upcase(s)[i] == s[i];
  }

  /** Upper-casing twice is the same as upper-casing once. */
  lemma UpcaseIdempotent(s: string)
    ensures Upcase(Upcase(s)) == Upcase(s)
  {
    UpcaseOfUpper(Upcase(s));
  }

  /** Every element occurs at most once. */
  ghost predicate Once<T(!new)>(s: seq<T>)
  {
    forall x :: multiset(s)[x] <= 1
  }
}

=== FILE: properties.dfy ===
/** Properties of the session engine that relate several calls: what EXEC
    writes for a queue of handler commands (against a reference reading of
    the handler table), how frames split across reads compose, and the
    behaviour of the session commands outside a transaction. */
module Properties {
  import opened Basics
  import opened Replies
  import opened Watchers
  import opened Protocol

  /** What a queued handler command returns, read straight off the table. */
  function TableOutcome(h: Handlers, c: Command): Outcome
    requires |c| > 0
  {
    var name := Upcase(c[0]);
    if name in h then h[name](c[1..]) else Raised(UnknownFault(name))
  }

  /** A queued frame EXEC runs to a reply: WATCH and UNWATCH, whose replies
      do not depend on the session, and every handler command that does not
      close the connection. */
  predicate QueuedCommand(h: Handlers, c: Command)
  {
    Queueable(c) && (HandlerName(Upcase(c[0])) ==> !TableOutcome(h, c).Close?)
  }

  /** A queued frame that only a handler serves and that does not close the
      connection. */
  predicate HandlerCommand(h: Handlers, c: Command)
  {
    QueuedCommand(h, c) && HandlerName(Upcase(c[0]))
  }

  /** Reference rendering of one queued frame inside EXEC: `+OK` for WATCH
      and for UNWATCH without arguments, the arity error for UNWATCH with
      some; for a handler command an exception is one `-ERR` line, an
      asynchronous result one nil reply, a Response its chunks, an Integer
      its `:n` line, and anything else one value for the base sender. */
  function ExecReply(h: Handlers, c: Command): seq<Chunk>
    requires QueuedCommand(h, c)
  {
    var name := Upcase(c[0]);
    if name == "WATCH" || (name == "UNWATCH" && |c| == 1) then [Raw("+OK\r\n")]
    else if name == "UNWATCH" then [Raw(ErrorLine(ArityFault(|c| - 1)))]
    else match TableOutcome(h, c)
      case Raised(f) => [Raw(ErrorLine(f))]
      case Returned(Deferred(_)) => [Encoded(NilReply)]
      case Returned(Response(items)) => Chunks(items)
      case Returned(Integer(n)) => [Raw(IntegerLine(n))]
      case Returned(Plain(p)) => [Encoded(p)]
  }

  /** The asynchronous result a queued handler command hands back, if any. */
  function ExecCancel(h: Handlers, c: Command): seq<Handle>
    requires QueuedCommand(h, c)
  {
    if !HandlerName(Upcase(c[0])) then []
    else match TableOutcome(h, c)
      case Returned(Deferred(d)) => [d]
      case _ => []
  }

  /** The replies of a whole queue, one group per frame, in queue order. */
  function ExecReplies(h: Handlers, q: seq<Command>): seq<Chunk>
    requires forall i :: 0 <= i < |q| ==> QueuedCommand(h, q[i])
    decreases |q|
  {
    if q == [] then [] else ExecReply(h, q[0]) + ExecReplies(h, q[1..])
  }

  function ExecCancels(h: Handlers, q: seq<Command>): seq<Handle>
    requires forall i :: 0 <= i < |q| ==> QueuedCommand(h, q[i])
    decreases |q|
  {
    if q == [] then [] else ExecCancel(h, q[0]) + ExecCancels(h, q[1..])
  }

  /** Every frame of the queue is served by the handler table. */
  predicate HandlersOnly(q: seq<Command>)
  {
    forall i :: 0 <= i < |q| ==> |q[i]| > 0 && HandlerName(Upcase(q[i][0]))
  }

  /** One round of the EXEC loop on a handler command: its reference reply
      is written, its asynchronous result (if any) cancelled, and the loop
      goes on. */
  lemma RoundReference(st: State, c: Command, h: Handlers)
    requires Valid(st) && HandlerCommand(h, c)
    ensures Round(st, c, h) ==
      (st.(out := st.out + ExecReply(h, c), cancelled := st.cancelled + ExecCancel(h, c)), false)
  {
    assert Serve(st, Upcase(c[0]), c[1..], h) == (st, TableOutcome(h, c));
    AbsorbReference(st, h, c);
  }

  /** The value of a handler command, absorbed by EXEC, writes exactly its
      reference reply and cancels exactly its asynchronous result. */
  lemma AbsorbReference(st: State, h: Handlers, c: Command)
    requires HandlerCommand(h, c)
    ensures Absorb(st, Rescue(TableOutcome(h, c)).v) ==
      st.(out := st.out + ExecReply(h, c), cancelled := st.cancelled + ExecCancel(h, c))
  {
    var o := TableOutcome(h, c);
    if o.Raised? {
      assert Chunks([ErrorLine(o.f)]) == [Raw(ErrorLine(o.f))];
    }
  }

  /** A queued WATCH, run by EXEC, is the session's watch of its keys
      followed by `+OK`; the loop goes on. */
  lemma RoundWatch(st: State, c: Command, h: Handlers)
    requires Valid(st) && Queueable(c) && Upcase(c[0]) == "WATCH"
    ensures Round(st, c, h) == (Watch(st, c[1..]).0.(out := st.out + [Raw("+OK\r\n")]), false)
  {
    assert Serve(st, "WATCH", c[1..], h) == Watch(st, c[1..]);
    assert Chunks(OK) == [Raw("+OK\r\n")];
  }

  /** A queued UNWATCH, run by EXEC: without arguments the session's unwatch
      followed by `+OK`; with arguments the arity error and no other change.
      The loop goes on either way. */
  lemma RoundUnwatch(st: State, c: Command, h: Handlers)
    requires Valid(st) && Queueable(c) && Upcase(c[0]) == "UNWATCH"
    ensures |c| == 1 ==> Round(st, c, h) == (Unwatch(st).(out := st.out + [Raw("+OK\r\n")]), false)
    ensures |c| > 1 ==>
      Round(st, c, h) == (st.(out := st.out + [Raw(ErrorLine(ArityFault(|c| - 1)))]), false)
  {
    if |c| == 1 {
      assert Chunks(OK) == [Raw("+OK\r\n")];
    } else {
      assert Chunks([ErrorLine(ArityFault(|c| - 1))]) == [Raw(ErrorLine(ArityFault(|c| - 1)))];
    }
  }

  /** One round of the EXEC loop on any queued frame that does not close the
      connection: its reference reply is written and its asynchronous result
      cancelled; only the watcher and the registry may change besides, and
      they do not for a handler command. */
  lemma RoundQueued(st: State, c: Command, h: Handlers)
    requires Valid(st) && QueuedCommand(h, c)
    ensures var r := Round(st, c, h);
      && !r.1
      && r.0 == st.(out := st.out + ExecReply(h, c), cancelled := st.cancelled + ExecCancel(h, c),
                    watcher := r.0.watcher, reg := r.0.reg)
      && (HandlerName(Upcase(c[0])) ==> r.0.watcher == st.watcher && r.0.reg == st.reg)
  {
    var name := Upcase(c[0]);
    if name == "WATCH" || name == "UNWATCH" {
      assert ExecCancel(h, c) == [] && st.cancelled + [] == st.cancelled;
      var s1: State;
      if name == "WATCH" {
        RoundWatch(st, c, h);
        s1 := Watch(st, c[1..]).0;
      } else {
        RoundUnwatch(st, c, h);
        s1 := if |c| == 1 then Unwatch(st) else st;
      }
      assert s1 == st.(watcher := s1.watcher, reg := s1.reg);
      assert Round(st, c, h) == (s1.(out := st.out + ExecReply(h, c)), false);
    } else {
      RoundReference(st, c, h);
    }
  }

  /** A queue of one frame drains in exactly one round. */
  lemma DrainSingle(st: State, c: Command, h: Handlers)
    requires Valid(st) && Queueable(c)
    ensures Drain(st, [c], h) == Round(st, c, h)
  {
    var q := [c];
    assert q[0] == c && q[1..] == [];
  }

  /** The queue after its first frame is still a queue of runnable frames,
      and still served by handlers only if the whole queue was. */
  lemma QueueTail(q: seq<Command>, h: Handlers)
    requires q != []
    requires forall i :: 0 <= i < |q| ==> QueuedCommand(h, q[i])
    ensures forall i :: 0 <= i < |q| - 1 ==> QueuedCommand(h, q[1..][i]) && Queueable(q[1..][i])
    ensures HandlersOnly(q) ==> HandlersOnly(q[1..]) && HandlerName(Upcase(q[0][0]))
  {
    forall i | 0 <= i < |q| - 1
      ensures QueuedCommand(h, q[1..][i]) && Queueable(q[1..][i])
    {
      assert q[1..][i] == q[i + 1];
    }
    if HandlersOnly(q) {
      forall i | 0 <= i < |q| - 1
        ensures |q[1..][i]| > 0 && HandlerName(Upcase(q[1..][i][0]))
      {
        assert q[1..][i] == q[i + 1];
      }
    }
  }

  lemma ConcatAssoc<T>(a: seq<T>, b: seq<T>, c: seq<T>)
    ensures a + b + c == a + (b + c)
  {
  }

  /** Draining a queue of runnable frames executes each exactly once, in
      order: the output grows by exactly the reference replies, the cancel
      log by exactly the asynchronous results, and nothing else changes but
      the watcher and the registry, which a queue of handler commands leaves
      alone too. */
  lemma {:induction false} DrainQueue(st: State, q: seq<Command>, h: Handlers)
    requires Valid(st)
    requires forall i :: 0 <= i < |q| ==> Queueable(q[i])
    requires forall i :: 0 <= i < |q| ==> QueuedCommand(h, q[i])
    ensures var r := Drain(st, q, h);
      && !r.1
      && r.0 == st.(out := st.out + ExecReplies(h, q), cancelled := st.cancelled + ExecCancels(h, q),
                    watcher := r.0.watcher, reg := r.0.reg)
      && (HandlersOnly(q) ==> r.0.watcher == st.watcher && r.0.reg == st.reg)
    decreases |q|
  {
    if q == [] {
      assert st.out + ExecReplies(h, q) == st.out && st.cancelled + ExecCancels(h, q) == st.cancelled;
    } else {
      QueueTail(q, h);
      RoundQueued(st, q[0], h);
      var st2 := Round(st, q[0], h).0;
      DrainQueue(st2, q[1..], h);
      assert ExecReplies(h, q) == ExecReply(h, q[0]) + ExecReplies(h, q[1..]);
      assert ExecCancels(h, q) == ExecCancel(h, q[0]) + ExecCancels(h, q[1..]);
      ConcatAssoc(st.out, ExecReply(h, q[0]), ExecReplies(h, q[1..]));
      ConcatAssoc(st.cancelled, ExecCancel(h, q[0]), ExecCancels(h, q[1..]));
    }
  }

  /** EXEC on an open transaction of runnable frames, with no watcher or a
      live one: one `*N` line for the N queued frames, then the reference
      replies in queue order; afterwards no queue, and — when only handlers
      were queued — no watcher. */
  lemma ExecQueue(st: State, h: Handlers)
    requires Valid(st) && st.multi.Some?
    requires st.watcher.None? || st.reg.watchers[st.watcher.value].bound
    requires forall i :: 0 <= i < |st.multi.value| ==> QueuedCommand(h, st.multi.value[i])
    ensures var q := st.multi.value;
      var r := Exec(st, h);
      && r.1 == Returned(Response([]))
      && r.0.out == st.out + [Raw(CountLine(|q|))] + ExecReplies(h, q)
      && r.0.cancelled == st.cancelled + ExecCancels(h, q)
      && r.0.multi.None?
      && (HandlersOnly(q) ==> r.0.watcher.None? && r.0.reg == Unwatch(st).reg)
  {
    var q := st.multi.value;
    var st1 := Unwatch(st);
    var st2 := st1.(out := st1.out + [Raw(CountLine(|q|))]);
    DrainQueue(st2, q, h);
  }

  /** Handling frames in one read or split over two reads is the same: the
      frames after a stop stay with the reader, otherwise the second read
      continues from the state the first left — with a buffer that is empty
      only if it was empty before the first read and that read wrote nothing. */
  lemma {:induction false} OnReadSplit(st: State, a: seq<Command>, b: seq<Command>, h: Handlers, bufferEmpty: bool)
    requires Valid(st)
    ensures var ra := OnRead(st, a, h, bufferEmpty);
      OnRead(st, a + b, h, bufferEmpty) ==
        if ra.2 then (ra.0, ra.1 + b, true)
        else OnRead(ra.0, b, h, bufferEmpty && |ra.0.out| == |st.out|)
    decreases |a|
  {
    if a == [] {
      assert a + b == b;
    } else {
      assert (a + b)[0] == a[0];
      assert (a + b)[1..] == a[1..] + b;
      var (st1, stop) := Step(st, a[0], h, bufferEmpty);
      if !stop {
        var empty1 := bufferEmpty && |st1.out| == |st.out|;
        OnReadSplit(st1, a[1..], b, h, empty1);
        var ra := OnRead(st1, a[1..], h, empty1);
        assert (empty1 && |ra.0.out| == |st1.out|) == (bufferEmpty && |ra.0.out| == |st.out|);
      }
    }
  }

  /** The frames a stopped read hands back to the reader are exactly the
      ones after the frame that stopped it, in arrival order: a suffix of the
      read, never the stopping frame itself. */
  lemma {:induction false} OnReadRest(st: State, frames: seq<Command>, h: Handlers, bufferEmpty: bool)
    requires Valid(st)
    ensures var r := OnRead(st, frames, h, bufferEmpty);
      r.2 ==> ProperSuffix(r.1, frames)
    decreases |frames|
  {
    if frames != [] {
      var s1 := Step(st, frames[0], h, bufferEmpty);
      OnReadFirst(st, frames, h, bufferEmpty);
      if s1.1 {
        SuffixStep(frames, frames[1..]);
      } else {
        var empty1 := bufferEmpty && |s1.0.out| == |st.out|;
        OnReadRest(s1.0, frames[1..], h, empty1);
        var r := OnRead(s1.0, frames[1..], h, empty1);
        if r.2 {
          SuffixStep(frames, r.1);
        }
      }
    }
  }

  /** `t` is what is left of `s` after dropping at least its first element. */
  ghost predicate ProperSuffix<T>(t: seq<T>, s: seq<T>)
  {
    |t| < |s| && t == s[|s| - |t|..]
  }

  /** The tail of a sequence, and any proper suffix of the tail, are proper
      suffixes of the sequence. */
  lemma SuffixStep<T>(s: seq<T>, t: seq<T>)
    requires |s| > 0 && (t == s[1..] || ProperSuffix(t, s[1..]))
    ensures ProperSuffix(t, s)
  {
  }

  /** One frame of a read: the step it takes, then either the stop with the
      rest handed back or the rest of the read. */
  lemma OnReadFirst(st: State, frames: seq<Command>, h: Handlers, bufferEmpty: bool)
    requires Valid(st) && frames != []
    ensures var s1 := Step(st, frames[0], h, bufferEmpty);
      OnRead(st, frames, h, bufferEmpty) ==
        if s1.1 then (s1.0, frames[1..], true)
        else OnRead(s1.0, frames[1..], h, bufferEmpty && |s1.0.out| == |st.out|)
  {
  }

  /** A read closes the connection at once only when the output buffer was
      empty before the read and the read wrote nothing: every reply written
      earlier in the same read is still buffered, so the connection closes
      after writing instead. */
  lemma {:induction false} ClosesOnlyWhenFlushed(st: State, frames: seq<Command>, h: Handlers, bufferEmpty: bool)
    requires Valid(st)
    ensures var r := OnRead(st, frames, h, bufferEmpty);
      r.0.conn == Closed && st.conn != Closed ==> bufferEmpty && r.0.out == st.out
    decreases |frames|
  {
    if frames != [] {
      var (st1, stop) := Step(st, frames[0], h, bufferEmpty);
      if !stop {
        ClosesOnlyWhenFlushed(st1, frames[1..], h, bufferEmpty && |st1.out| == |st.out|);
      }
    }
  }

  /** While a transaction is open, a queueable frame is appended to the end
      of the queue unexecuted and answered with exactly `+QUEUED`; the loop
      goes on. */
  lemma QueueWhileOpen(st: State, frame: Command, h: Handlers, bufferEmpty: bool)
    requires Valid(st) && st.multi.Some? && Queueable(frame)
    ensures Step(st, frame, h, bufferEmpty) ==
      (st.(multi := Some(st.multi.value + [frame]), out := st.out + [Raw("+QUEUED\r\n")]), false)
  {
    assert Chunks(QUEUED) == [Raw("+QUEUED\r\n")];
  }

  /** MULTI while a transaction is open is not queued: it reaches the handler,
      writes exactly the nesting error and leaves the queue as it was. */
  lemma NestedMulti(st: State, frame: Command, h: Handlers, bufferEmpty: bool)
    requires Valid(st) && st.multi.Some? && |frame| == 1 && Upcase(frame[0]) == "MULTI"
    ensures Step(st, frame, h, bufferEmpty) == (st.(out := st.out + [Raw(ErrorLine(NestingFault))]), false)
  {
    assert Chunks([ErrorLine(NestingFault)]) == [Raw(ErrorLine(NestingFault))];
  }

  /** MULTI with no open transaction installs an empty queue and replies `+OK`. */
  lemma OpenMulti(st: State, frame: Command, h: Handlers, bufferEmpty: bool)
    requires Valid(st) && st.multi.None? && |frame| == 1 && Upcase(frame[0]) == "MULTI"
    ensures Step(st, frame, h, bufferEmpty) == (st.(multi := Some([]), out := st.out + [Raw("+OK\r\n")]), false)
  {
    assert Chunks(OK) == [Raw("+OK\r\n")];
  }

  /** A handler that raises anything but `CloseConnection` (or a name with no
      handler) gets exactly one `-ERR <class>: <message>` line, changes nothing
      else, and the loop goes on with the next frame. */
  lemma HandlerFailure(st: State, frame: Command, h: Handlers, bufferEmpty: bool)
    requires Valid(st) && |frame| > 0 && HandlerName(Upcase(frame[0]))
    requires st.multi.None? || Exempt(Upcase(frame[0]))
    requires TableOutcome(h, frame).Raised?
    ensures Step(st, frame, h, bufferEmpty) ==
      (st.(out := st.out + [Raw(ErrorLine(TableOutcome(h, frame).f))]), false)
  {
    var f := TableOutcome(h, frame).f;
    assert Chunks([ErrorLine(f)]) == [Raw(ErrorLine(f))];
  }

  /** A handler that returns a value has it sent by `send_redis`: its chunks
      are written (a Response, an Integer, a value for the base sender), or an
      asynchronous result takes the single deferred slot; the session is
      otherwise unchanged and the loop goes on. */
  lemma HandlerReply(st: State, frame: Command, h: Handlers, bufferEmpty: bool)
    requires Valid(st) && |frame| > 0 && HandlerName(Upcase(frame[0]))
    requires st.multi.None? || Exempt(Upcase(frame[0]))
    requires TableOutcome(h, frame).Returned?
    ensures Step(st, frame, h, bufferEmpty) == (Send(st, TableOutcome(h, frame).v), false)
  {
    assert Dispatch(st, frame, h) == (st, TableOutcome(h, frame));
    assert Act(st, frame, h, bufferEmpty) == (Send(st, TableOutcome(h, frame).v), false);
  }

  /** Two handler frames in one read that return different asynchronous
      results: the first is cancelled, the second holds the deferred slot,
      and nothing is written. */
  lemma DeferredTwice(st: State, f1: Command, f2: Command, h: Handlers, bufferEmpty: bool)
    requires Valid(st) && st.multi.None? && st.deferred.None?
    requires |f1| > 0 && HandlerName(Upcase(f1[0])) && |f2| > 0 && HandlerName(Upcase(f2[0]))
    requires TableOutcome(h, f1).Returned? && TableOutcome(h, f1).v.Deferred?
    requires TableOutcome(h, f2).Returned? && TableOutcome(h, f2).v.Deferred?
    requires TableOutcome(h, f1).v.handle != TableOutcome(h, f2).v.handle
    ensures var r := OnRead(st, [f1, f2], h, bufferEmpty);
      && r.0 == st.(deferred := Some(TableOutcome(h, f2).v.handle),
                    cancelled := st.cancelled + [TableOutcome(h, f1).v.handle])
      && r.1 == [] && !r.2
  {
    var frames := [f1, f2];
    HandlerReply(st, f1, h, bufferEmpty);
    var st1 := Send(st, TableOutcome(h, f1).v);
    var empty1 := bufferEmpty && |st1.out| == |st.out|;
    HandlerReply(st1, f2, h, empty1);
    var st2 := Send(st1, TableOutcome(h, f2).v);
    assert frames[0] == f1 && frames[1..] == [f2] && frames[1..][1..] == [];
    assert OnRead(st1, [f2], h, empty1) == (st2, [], false);
  }

  /** A reply followed by `CloseConnection` in the same read: the reply is
      written and the connection closes after writing it, even when the
      buffer was empty when the read began. */
  lemma ReplyThenClose(st: State, f1: Command, f2: Command, h: Handlers, bufferEmpty: bool)
    requires Valid(st) && st.multi.None?
    requires |f1| > 0 && HandlerName(Upcase(f1[0])) && |f2| > 0 && HandlerName(Upcase(f2[0]))
    requires TableOutcome(h, f1).Returned? && TableOutcome(h, f1).v.Response?
    requires TableOutcome(h, f1).v.items != []
    requires TableOutcome(h, f2).Close?
    ensures OnRead(st, [f1, f2], h, bufferEmpty) ==
      (st.(out := st.out + Chunks(TableOutcome(h, f1).v.items), conn := ClosingAfterWriting), [], true)
  {
    var frames := [f1, f2];
    HandlerReply(st, f1, h, bufferEmpty);
    var st1 := Send(st, TableOutcome(h, f1).v);
    HandlerClose(st1, f2, h, false);
    assert frames[0] == f1 && frames[1..] == [f2] && frames[1..][1..] == [];
  }

  /** `CloseConnection` from a handler writes no reply: the loop stops and
      the connection closes at once with an empty output buffer, or after
      writing otherwise. */
  lemma HandlerClose(st: State, frame: Command, h: Handlers, bufferEmpty: bool)
    requires Valid(st) && |frame| > 0 && HandlerName(Upcase(frame[0]))
    requires st.multi.None? || Exempt(Upcase(frame[0]))
    requires TableOutcome(h, frame).Close?
    ensures Step(st, frame, h, bufferEmpty) ==
      (st.(conn := if bufferEmpty then Closed else ClosingAfterWriting), true)
  {
  }

  /** Frames that follow a `CloseConnection` in the same read are never
      dispatched: they are handed back to the reader untouched. */
  lemma CloseStopsRead(st: State, frame: Command, later: seq<Command>, h: Handlers, bufferEmpty: bool)
    requires Valid(st) && |frame| > 0 && HandlerName(Upcase(frame[0]))
    requires st.multi.None? || Exempt(Upcase(frame[0]))
    requires TableOutcome(h, frame).Close?
    ensures OnRead(st, [frame] + later, h, bufferEmpty) ==
      (st.(conn := if bufferEmpty then Closed else ClosingAfterWriting), later, true)
  {
    HandlerClose(st, frame, h, bufferEmpty);
    assert ([frame] + later)[0] == frame && ([frame] + later)[1..] == later;
  }

  /** EXEC with no open transaction and no invalidated watcher: the missing
      queue raises, which becomes one `-ERR` line; a live watcher is
      released on the way. */
  lemma ExecWithoutMulti(st: State, frame: Command, h: Handlers, bufferEmpty: bool)
    requires Valid(st) && st.multi.None? && |frame| == 1 && Upcase(frame[0]) == "EXEC"
    requires st.watcher.None? || st.reg.watchers[st.watcher.value].bound
    ensures Step(st, frame, h, bufferEmpty) ==
      (Unwatch(st).(out := st.out + [Raw(ErrorLine(NilSizeFault))]), false)
  {
    assert Chunks([ErrorLine(NilSizeFault)]) == [Raw(ErrorLine(NilSizeFault))];
  }

  /** EXEC when the watcher has been invalidated: exactly `*-1`, no queued
      frame executed, and afterwards neither a queue nor a watcher — whether
      or not a transaction was open. */
  lemma ExecInvalidated(st: State, frame: Command, h: Handlers, bufferEmpty: bool)
    requires Valid(st) && |frame| == 1 && Upcase(frame[0]) == "EXEC"
    requires st.watcher.Some? && !st.reg.watchers[st.watcher.value].bound
    ensures Step(st, frame, h, bufferEmpty) ==
      (st.(watcher := None, multi := None, out := st.out + [Raw("*-1\r\n")]), false)
  {
    assert Chunks(NIL_MB) == [Raw("*-1\r\n")];
  }

  /** DISCARD replies `+OK` and releases the watcher whether or not a
      transaction is open. */
  lemma DiscardAnyTime(st: State, frame: Command, h: Handlers, bufferEmpty: bool)
    requires Valid(st) && |frame| == 1 && Upcase(frame[0]) == "DISCARD"
    ensures Step(st, frame, h, bufferEmpty) ==
      (Unwatch(st).(multi := None, out := st.out + [Raw("+OK\r\n")]), false)
  {
    assert Chunks(OK) == [Raw("+OK\r\n")];
  }

  /** WATCH on a session whose watcher has been invalidated reuses that
      watcher, which ignores the new keys: nothing is recorded or listed. */
  lemma WatchAfterInvalidation(st: State, keys: seq<string>)
    requires Valid(st) && st.watcher.Some? && !st.reg.watchers[st.watcher.value].bound
    ensures Watch(st, keys) == (st, Returned(Response(OK)))
  {
  }

  /** UNWATCH twice in a row: `+OK` both times, and the second changes
      nothing at all. */
  lemma UnwatchTwice(st: State, frame: Command, h: Handlers, bufferEmpty: bool)
    requires Valid(st) && st.multi.None? && |frame| == 1 && Upcase(frame[0]) == "UNWATCH"
    ensures var r1 := Step(st, frame, h, bufferEmpty);
      var r2 := Step(r1.0, frame, h, bufferEmpty);
      && r1.0 == Unwatch(st).(out := st.out + [Raw("+OK\r\n")])
      && r2.0 == r1.0.(out := r1.0.out + [Raw("+OK\r\n")])
      && !r1.1 && !r2.1
  {
    UnwatchFrame(st, frame, h, bufferEmpty);
    var st1 := Unwatch(st).(out := st.out + [Raw("+OK\r\n")]);
    UnwatchFrame(st1, frame, h, bufferEmpty);
  }

  /** UNWATCH as a frame outside a transaction: the watcher is released and
      `+OK` written. */
  lemma UnwatchFrame(st: State, frame: Command, h: Handlers, bufferEmpty: bool)
    requires Valid(st) && st.multi.None? && |frame| == 1 && Upcase(frame[0]) == "UNWATCH"
    ensures Step(st, frame, h, bufferEmpty) == (Unwatch(st).(out := st.out + [Raw("+OK\r\n")]), false)
  {
    assert Chunks(OK) == [Raw("+OK\r\n")];
  }

  /** EXEC as a frame, on an open transaction of handler commands with no
      watcher or a live one: `*N`, the reference replies in queue order, and
      afterwards no queue and no watcher; the loop goes on. */
  lemma ExecCommits(st: State, frame: Command, h: Handlers, bufferEmpty: bool)
    requires Valid(st) && st.multi.Some? && |frame| == 1 && Upcase(frame[0]) == "EXEC"
    requires st.watcher.None? || st.reg.watchers[st.watcher.value].bound
    requires forall i :: 0 <= i < |st.multi.value| ==> QueuedCommand(h, st.multi.value[i])
    ensures var q := st.multi.value;
      var r := Step(st, frame, h, bufferEmpty);
      && !r.1
      && r.0.out == st.out + [Raw(CountLine(|q|))] + ExecReplies(h, q)
      && r.0.cancelled == st.cancelled + ExecCancels(h, q)
      && r.0.multi.None?
      && (HandlersOnly(q) ==> r.0.watcher.None? && r.0.reg == Unwatch(st).reg)
  {
    ExecQueue(st, h);
    ExecFrame(st, frame, h, bufferEmpty);
  }

  /** An EXEC frame whose EXEC returns the empty Response: the session is
      left exactly as EXEC left it, with nothing more written. */
  lemma ExecFrame(st: State, frame: Command, h: Handlers, bufferEmpty: bool)
    requires Valid(st) && |frame| == 1 && Upcase(frame[0]) == "EXEC"
    requires Exec(st, h).1 == Returned(Response([]))
    ensures Step(st, frame, h, bufferEmpty) == (Exec(st, h).0, false)
  {
    var r := Exec(st, h);
    assert Invoke(st, "EXEC", frame[1..], h) == r;
    assert Dispatch(st, frame, h) == r;
    assert Chunks([]) == [];
    assert Send(r.0, Response([])) == r.0;
  }

  /** EXEC whose queue raises `CloseConnection`: the `*N` header written by
      EXEC itself is still buffered, so the connection closes after writing,
      whatever the buffer held before; the queue stays in place. */
  lemma ExecCloseWaits(st: State, frame: Command, h: Handlers, bufferEmpty: bool)
    requires Valid(st) && st.multi.Some? && |frame| == 1 && Upcase(frame[0]) == "EXEC"
    requires st.watcher.None? || st.reg.watchers[st.watcher.value].bound
    requires Commit(Unwatch(st), h).1.Close?
    ensures var r := Step(st, frame, h, bufferEmpty);
      r.1 && r.0.conn == ClosingAfterWriting && r.0.multi == st.multi
  {
    var r := Exec(st, h);
    assert Invoke(st, "EXEC", frame[1..], h) == r;
    assert Dispatch(st, frame, h) == r;
  }

  /** WATCH as a frame outside a transaction, whatever watcher the session
      holds: exactly WATCH's effect on the watcher and the registry, then
      `+OK`; nothing else changes. A held live token is bound to the new keys
      as well. */
  lemma WatchFrame(st: State, frame: Command, h: Handlers, bufferEmpty: bool)
    requires Valid(st) && st.multi.None? && |frame| > 0 && Upcase(frame[0]) == "WATCH"
    ensures var w := Watch(st, frame[1..]);
      Step(st, frame, h, bufferEmpty) == (w.0.(out := st.out + [Raw("+OK\r\n")]), false)
    ensures st.watcher.Some? ==> var r := Step(st, frame, h, bufferEmpty);
      && r.0.watcher == st.watcher
      && r.0.reg == Bind(st.reg, st.watcher.value, st.db, frame[1..])
  {
    var w := Watch(st, frame[1..]);
    assert Invoke(st, "WATCH", frame[1..], h) == w;
    assert Dispatch(st, frame, h) == w;
    assert Chunks(OK) == [Raw("+OK\r\n")];
  }

  /** WATCH as a frame: `+OK`, and a session that had no watcher now holds a
      fresh one listed under every given key. */
  lemma WatchFresh(st: State, frame: Command, h: Handlers, bufferEmpty: bool)
    requires Valid(st) && st.watcher.None? && |frame| > 0 && Upcase(frame[0]) == "WATCH"
    requires st.multi.None?
    ensures var r := Step(st, frame, h, bufferEmpty);
      && !r.1
      && r.0 == st.(watcher := r.0.watcher, reg := r.0.reg, out := st.out + [Raw("+OK\r\n")])
      && r.0.watcher.Some? && r.0.watcher.value !in st.reg.watchers
      && r.0.reg.watchers[r.0.watcher.value].bound
      && forall key :: key in frame[1..] ==> Listed(r.0.reg, r.0.watcher.value, WatchKey(st.db, key))
  {
    var w := Watch(st, frame[1..]);
    assert Serve(st, "WATCH", frame[1..], h) == w;
    assert Invoke(st, "WATCH", frame[1..], h) == w;
    assert Dispatch(st, frame, h) == w;
    assert Chunks(OK) == [Raw("+OK\r\n")];
    assert Step(st, frame, h, bufferEmpty) == (Send(w.0, Response(OK)), false);
  }
}

=== FILE: protocol.dfy ===
/** `Redis::Protocol`: the per-connection session engine.

    A session holds an optional transaction queue (`@multi`), an optional
    watcher token (`@watcher`) and at most one outstanding asynchronous
    result (`@deferred`). Every decoded frame is either queued (while a
    transaction is open) or dispatched by name to a handler; what the handler
    returns is written to the connection. The world a session acts on is the
    shared watcher registry, the chunks written so far and the log of
    asynchronous results it cancelled. */
module Protocol {
  import opened Basics
  import opened Replies
  import opened Watchers

  /** A decoded frame: the command name, then its arguments. */
  type Command = seq<string>

  /** How the reflective call of a handler ends: a value, an exception, or
      `CloseConnection`. */
  datatype Outcome = Returned(v: Value) | Raised(f: Fault) | Close

  /** The connection's command methods other than the session commands,
      by upper-case name (PING, GET, QUIT, DEBUG, ...). */
  type Handlers = map<string, seq<string> -> Outcome>

  /** Open, closed at once, or closing once the output buffer drains. */
  datatype Conn = Open | Closed | ClosingAfterWriting

  datatype State = State(
    db: nat,                       // `@database`, the keyspace WATCH binds in
    multi: Option<seq<Command>>,   // `@multi`
    watcher: Option<WatcherId>,    // `@watcher`
    deferred: Option<Handle>,      // `@deferred`
    conn: Conn,
    reg: Registry,                 // the shared watcher registry
    out: seq<Chunk>,               // everything written, in order
    cancelled: seq<Handle>)        // every `unbind` sent to an asynchronous result

  /** The commands executed even while a transaction is open. */
  predicate Exempt(name: string)
  {
    name == "MULTI" || name == "EXEC" || name == "DEBUG" || name == "DISCARD"
  }

  /** A frame that is queued rather than executed while a transaction is open. */
  predicate Queueable(c: Command)
  {
    |c| > 0 && !Exempt(Upcase(c[0]))
  }

  /** The states a session can reach: a well-formed registry, a watcher the
      registry knows, and a queue holding only frames that were queued. */
  ghost predicate Valid(st: State)
  {
    && Wf(st.reg)
    && (st.watcher.Some? ==> st.watcher.value in st.reg.watchers)
    && (st.multi.Some? ==> forall i :: 0 <= i < |st.multi.value| ==> Queueable(st.multi.value[i]))
  }

  /** A new connection: no transaction, no watcher, nothing outstanding. */
  function Init(db: nat, reg: Registry): (st: State)
    requires Wf(reg)
    ensures Valid(st) && st.out == [] && st.multi.None? && st.watcher.None? && st.deferred.None?
  {
    State(db, None, None, None, Open, reg, [], [])
  }

  /** The exceptions the session itself raises. */
  const NestingFault: Fault := Fault("RuntimeError", "MULTI nesting not allowed")
  const NilSizeFault: Fault := Fault("NoMethodError", "undefined method `size' for nil:NilClass")
  const NilUpcaseFault: Fault := Fault("NoMethodError", "undefined method `upcase' for nil:NilClass")
  const NoCommandFault: Fault := Fault("ArgumentError", "wrong number of arguments (given 0, expected 1+)")

  function ArityFault(given: nat): Fault
  {
    Fault("ArgumentError", "wrong number of arguments (given " + Decimal(given) + ", expected 0)")
  }

  function UnknownFault(name: string): Fault
  {
    Fault("NoMethodError", "undefined method `redis_" + name + "'")
  }

  function Chunks(items: seq<string>): (cs: seq<Chunk>)
    ensures |cs| == |items|
    ensures forall i :: 0 <= i < |items| ==> cs[i] == Raw(items[i])
  {
    seq(|items|, i requires 0 <= i < |items| => Raw(items[i]))
  }

  /** `send_redis`: a Deferrable takes the single deferred slot, cancelling a
      different handle held there first (the same handle changes nothing); a
      Response writes its chunks in order; an Integer writes `:n\r\n`; any
      other value goes to the base sender. Only the written chunks, the slot
      and the cancel log can change. */
  function Send(st: State, v: Value): (st': State)
    ensures st'.multi == st.multi && st'.watcher == st.watcher && st'.reg == st.reg
    ensures st'.conn == st.conn && st'.db == st.db
    ensures v.Deferred? ==> st'.out == st.out && st'.deferred == Some(v.handle)
    ensures v.Deferred? && st.deferred.Some? && st.deferred.value != v.handle ==>
      st'.cancelled == st.cancelled + [st.deferred.value]
    ensures v.Deferred? && (st.deferred.None? || st.deferred.value == v.handle) ==> st' == st.(deferred := Some(v.handle))
    ensures !v.Deferred? ==> st'.deferred == st.deferred && st'.cancelled == st.cancelled
    ensures v.Response? ==> st'.out == st.out + Chunks(v.items)
    ensures v.Integer? ==> st'.out == st.out + [Raw(IntegerLine(v.n))]
    ensures v.Plain? ==> st'.out == st.out + [Encoded(v.p)]
  {
    match v
    case Deferred(d) =>
      if st.deferred.Some? && st.deferred.value != d then
        st.(cancelled := st.cancelled + [st.deferred.value], deferred := Some(d))
      else st.(deferred := Some(d))
    case Response(items) => st.(out := st.out + Chunks(items))
    case Integer(n) => st.(out := st.out + [Raw(IntegerLine(n))])
    case Plain(p) => st.(out := st.out + [Encoded(p)])
  }

  /** Two asynchronous results in a row: the first is cancelled exactly once
      and the second is the one outstanding; resending the second is a no-op. */
  lemma SendDeferredTwice(st: State, d1: Handle, d2: Handle)
    requires st.deferred.None? && d1 != d2
    ensures Send(Send(st, Deferred(d1)), Deferred(d2)).cancelled == st.cancelled + [d1]
    ensures Send(Send(st, Deferred(d1)), Deferred(d2)).deferred == Some(d2)
    ensures Send(Send(Send(st, Deferred(d1)), Deferred(d2)), Deferred(d2))
         == Send(Send(st, Deferred(d1)), Deferred(d2))
  {
  }

  /** `unbind` of the connection: cancels the outstanding asynchronous result
      and unbinds the watcher, so the token leaves every registry list. The
      session fields themselves are not cleared. */
  function Teardown(st: State): (st': State)
    requires Valid(st)
    ensures Valid(st') && Persists(st.reg, st'.reg)
    ensures st'.multi == st.multi && st'.watcher == st.watcher && st'.deferred == st.deferred
    ensures st'.out == st.out
    ensures st'.cancelled == st.cancelled + (if st.deferred.Some? then [st.deferred.value] else [])
    ensures st.watcher.Some? ==> !st'.reg.watchers[st.watcher.value].bound
    ensures st.watcher.Some? ==> forall k :: !Listed(st'.reg, st.watcher.value, k)
    ensures st.watcher.Some? ==> st'.reg == Unbind(st.reg, st.watcher.value)
    ensures st.watcher.None? ==> st'.reg == st.reg
  {
    var st1 := if st.deferred.Some? then st.(cancelled := st.cancelled + [st.deferred.value]) else st;
    if st.watcher.Some? then
      UnbindWf(st.reg, st.watcher.value);
      st1.(reg := Unbind(st.reg, st.watcher.value))
    else st1
  }

  /** An external write to a watched key fires the token's callback or
      errback, and both run the token's `unbind`. */
  function Invalidate(st: State, w: WatcherId): (st': State)
    requires Valid(st) && w in st.reg.watchers
    ensures Valid(st') && Persists(st.reg, st'.reg)
    ensures !st'.reg.watchers[w].bound && forall k :: !Listed(st'.reg, w, k)
    ensures st'.reg == Unbind(st.reg, w)
    ensures st' == st.(reg := st'.reg)
  {
    UnbindWf(st.reg, w);
    st.(reg := Unbind(st.reg, w))
  }

  /** `redis_UNWATCH`: unbinds and drops the watcher if there is one. */
  function Unwatch(st: State): (st': State)
    requires Valid(st)
    ensures Valid(st') && Persists(st.reg, st'.reg)
    ensures st'.watcher.None?
    ensures st' == st.(watcher := None, reg := st'.reg)
    ensures st.watcher.None? ==> st' == st
    ensures st.watcher.Some? ==> !st'.reg.watchers[st.watcher.value].bound
    ensures st.watcher.Some? ==> forall k :: !Listed(st'.reg, st.watcher.value, k)
    ensures st.watcher.Some? ==> st'.reg == Unbind(st.reg, st.watcher.value)
  {
    if st.watcher.Some? then
      UnbindWf(st.reg, st.watcher.value);
      st.(reg := Unbind(st.reg, st.watcher.value), watcher := None)
    else st
  }

  /** `redis_WATCH`: reuse the session's token or create one, then bind the
      keys in the session's database. A fresh token ends up listed under
      every given key; a reused token that is no longer bound ignores them. */
  function Watch(st: State, keys: seq<string>): (r: (State, Outcome))
    requires Valid(st)
    ensures Valid(r.0) && Persists(st.reg, r.0.reg)
    ensures r.1 == Returned(Response(OK))
    ensures r.0 == st.(watcher := r.0.watcher, reg := r.0.reg)
    ensures r.0.watcher.Some?
    ensures st.watcher.Some? ==>
      r.0.watcher == st.watcher && r.0.reg == Bind(st.reg, st.watcher.value, st.db, keys)
    ensures st.watcher.None? ==>
      r.0.watcher.value !in st.reg.watchers && r.0.reg.watchers[r.0.watcher.value].bound
    ensures st.watcher.None? ==>
      && r.0.watcher == Some(NewWatcher(st.reg).1)
      && r.0.reg == Bind(NewWatcher(st.reg).0, NewWatcher(st.reg).1, st.db, keys)
    ensures st.watcher.None? ==>
      forall k :: k in r.0.reg.watchers[r.0.watcher.value].watched <==> k.db == st.db && k.key in keys
    ensures forall v :: v in st.reg.watchers && Some(v) != st.watcher ==> r.0.reg.watchers[v] == st.reg.watchers[v]
    ensures r.0.reg.watchers[r.0.watcher.value].bound ==>
      forall key :: key in keys ==> Listed(r.0.reg, r.0.watcher.value, WatchKey(st.db, key))
  {
    var (reg1, w) := if st.watcher.Some? then (st.reg, st.watcher.value) else NewWatcher(st.reg);
    BindWf(reg1, w, st.db, keys);
    BindLists(reg1, w, st.db, keys);
    (st.(watcher := Some(w), reg := Bind(reg1, w, st.db, keys)), Returned(Response(OK)))
  }

  /** `redis_MULTI`: opens an empty queue, or raises the nesting error and
      leaves the open queue as it is. */
  function Multi(st: State): (r: (State, Outcome))
    ensures st.multi.None? ==> r.0 == st.(multi := Some([])) && r.1 == Returned(Response(OK))
    ensures st.multi.Some? ==> r.0 == st && r.1 == Raised(NestingFault)
  {
    if st.multi.Some? then (st, Raised(NestingFault))
    else (st.(multi := Some([])), Returned(Response(OK)))
  }

  /** `redis_DISCARD`: an implicit UNWATCH, then the queue is dropped; `+OK`
      whether or not a transaction was open. */
  function Discard(st: State): (r: (State, Outcome))
    requires Valid(st)
    ensures Valid(r.0) && Persists(st.reg, r.0.reg)
    ensures r.1 == Returned(Response(OK))
    ensures r.0.multi.None? && r.0.watcher.None?
    ensures r.0 == Unwatch(st).(multi := None)
    ensures r.0.out == st.out && r.0.db == st.db && r.0.conn == st.conn
  {
    (Unwatch(st).(multi := None), Returned(Response(OK)))
  }

  /** A raised exception other than `CloseConnection` becomes a one-chunk
      `-ERR` Response; everything else passes through. */
  function Rescue(o: Outcome): (o': Outcome)
    ensures !o'.Raised?
    ensures o.Raised? ==> o' == Returned(Response([ErrorLine(o.f)]))
    ensures !o.Raised? ==> o' == o
  {
    if o.Raised? then Returned(Response([ErrorLine(o.f)])) else o
  }

  /** `send "redis_#{name}"` for every name other than MULTI, EXEC and
      DISCARD: WATCH and UNWATCH act on the session, other names go to the
      handler table, and a name with no handler raises. */
  function Serve(st: State, name: string, args: seq<string>, h: Handlers): (r: (State, Outcome))
    requires Valid(st)
    ensures Valid(r.0) && Persists(st.reg, r.0.reg)
    ensures r.0 == st.(watcher := r.0.watcher, reg := r.0.reg)
    ensures r.0.out == st.out && r.0.db == st.db && r.0.conn == st.conn
    ensures name != "WATCH" && name != "UNWATCH" ==> r.0 == st
    ensures name != "WATCH" && name != "UNWATCH" && name in h ==> r.1 == h[name](args)
    ensures name != "WATCH" && name != "UNWATCH" && name !in h ==> r.1 == Raised(UnknownFault(name))
    ensures name == "UNWATCH" && |args| > 0 ==> r == (st, Raised(ArityFault(|args|)))
    ensures name == "UNWATCH" && |args| == 0 ==> r == (Unwatch(st), Returned(Response(OK)))
    ensures name == "WATCH" ==> r == Watch(st, args)
  {
    if name == "WATCH" then Watch(st, args)
    else if name == "UNWATCH" then
      if |args| > 0 then (st, Raised(ArityFault(|args|))) else (Unwatch(st), Returned(Response(OK)))
    else if name in h then (st, h[name](args))
    else (st, Raised(UnknownFault(name)))
  }

  /** What EXEC does with one queued frame's value: an asynchronous result
      is cancelled and a nil reply written in its place (the deferred slot
      is not touched); any other value is sent. */
  function Absorb(st: State, v: Value): (st': State)
    ensures st' == st.(out := st'.out, cancelled := st'.cancelled)
    ensures st'.reg == st.reg && st'.watcher == st.watcher && st'.multi == st.multi
    ensures st'.db == st.db && st'.conn == st.conn
    ensures |st.out| <= |st'.out| && st'.out[..|st.out|] == st.out
    ensures v.Deferred? ==>
      st'.out == st.out + [Encoded(NilReply)] && st'.cancelled == st.cancelled + [v.handle]
    ensures !v.Deferred? ==> st' == Send(st, v)
  {
    if v.Deferred? then
      st.(cancelled := st.cancelled + [v.handle], out := st.out + [Encoded(NilReply)])
    else Send(st, v)
  }

  /** One round of the loop in `redis_EXEC`: the queued frame goes through
      `call_redis` and its value is absorbed; the boolean is true when the
      frame raised `CloseConnection`, which writes nothing. */
  function Round(st: State, c: Command, h: Handlers): (r: (State, bool))
    requires Valid(st) && Queueable(c)
    ensures Valid(r.0) && Persists(st.reg, r.0.reg)
    ensures r.0.multi == st.multi && r.0.db == st.db && r.0.conn == st.conn
    ensures |st.out| <= |r.0.out| && r.0.out[..|st.out|] == st.out
  {
    var (st1, o) := Serve(st, Upcase(c[0]), c[1..], h);
    match Rescue(o)
    case Close => (st1, true)
    case Returned(v) => (Absorb(st1, v), false)
  }

  /** The loop of `redis_EXEC` over the queue, in order, until a frame
      raises `CloseConnection` (the boolean result). The queue itself is not
      touched. */
  function Drain(st: State, q: seq<Command>, h: Handlers): (r: (State, bool))
    requires Valid(st)
    requires forall i :: 0 <= i < |q| ==> Queueable(q[i])
    ensures Valid(r.0) && Persists(st.reg, r.0.reg)
    ensures r.0.multi == st.multi && r.0.db == st.db && r.0.conn == st.conn
    ensures |st.out| <= |r.0.out| && r.0.out[..|st.out|] == st.out
    decreases |q|
  {
    if q == [] then (st, false)
    else
      assert Queueable(q[0]);
      var (st1, closed) := Round(st, q[0], h);
      if closed then (st1, true)
      else
        var r := Drain(st1, q[1..], h);
        assert r.0.out[..|st.out|] == r.0.out[..|st1.out|][..|st.out|];
        r
  }

  /** The committing half of `redis_EXEC`: write `*N` for the N queued
      frames, execute them in order, then drop the queue — unless a queued
      frame raised `CloseConnection`, which escapes with the queue in place. */
  function Commit(st: State, h: Handlers): (r: (State, Outcome))
    requires Valid(st) && st.multi.Some?
    ensures Valid(r.0) && Persists(st.reg, r.0.reg)
    ensures r.0.db == st.db && r.0.conn == st.conn
    ensures |st.out| < |r.0.out| && r.0.out[..|st.out|] == st.out
    ensures r.0.out[..|st.out| + 1] == st.out + [Raw(CountLine(|st.multi.value|))]
    ensures r.1.Close? ==> r.0.multi == st.multi
    ensures !r.1.Close? ==> r.1 == Returned(Response([])) && r.0.multi.None?
  {
    var q := st.multi.value;
    var st1 := st.(out := st.out + [Raw(CountLine(|q|))]);
    var (st2, closed) := Drain(st1, q, h);
    assert st2.out[..|st.out| + 1] == st2.out[..|st1.out|];
    assert st2.out[..|st.out|] == st2.out[..|st1.out|][..|st.out|];
    if closed then (st2, Close) else (st2.(multi := None), Returned(Response([])))
  }

  /** `redis_EXEC`. With an invalidated watcher: release it, drop the queue,
      reply `*-1` and execute nothing. Otherwise release any watcher, then
      fail on the missing queue when no transaction is open, or commit. The
      watcher held on entry is unbound for good either way. */
  function Exec(st: State, h: Handlers): (r: (State, Outcome))
    requires Valid(st)
    ensures Valid(r.0) && Persists(st.reg, r.0.reg)
    ensures r.0.db == st.db && r.0.conn == st.conn
    ensures |st.out| <= |r.0.out| && r.0.out[..|st.out|] == st.out
    ensures st.watcher.Some? ==> !r.0.reg.watchers[st.watcher.value].bound
    ensures st.watcher.Some? && !st.reg.watchers[st.watcher.value].bound ==>
      r == (st.(watcher := None, multi := None), Returned(Response(NIL_MB)))
    ensures (st.watcher.None? || st.reg.watchers[st.watcher.value].bound) && st.multi.None? ==>
      r == (Unwatch(st), Raised(NilSizeFault))
    ensures (st.watcher.None? || st.reg.watchers[st.watcher.value].bound) && st.multi.Some? ==>
      r == Commit(Unwatch(st), h)
  {
    if st.watcher.Some? && !st.reg.watchers[st.watcher.value].bound then
      (Unwatch(st).(multi := None), Returned(Response(NIL_MB)))
    else
      var st1 := Unwatch(st);
      if st1.multi.None? then (st1, Raised(NilSizeFault)) else Commit(st1, h)
  }

  /** `send "redis_#{name}", *args` for every name: the session commands
      MULTI, EXEC and DISCARD take no arguments and raise an ArgumentError
      (changing nothing) when given some; every other name is `Serve`. */
  function Invoke(st: State, name: string, args: seq<string>, h: Handlers): (r: (State, Outcome))
    requires Valid(st)
    ensures Valid(r.0) && Persists(st.reg, r.0.reg)
    ensures r.0.db == st.db && r.0.conn == st.conn
    ensures |st.out| <= |r.0.out| && r.0.out[..|st.out|] == st.out
    ensures (name == "MULTI" || name == "EXEC" || name == "DISCARD") && |args| > 0 ==>
      r == (st, Raised(ArityFault(|args|)))
    ensures name == "MULTI" && |args| == 0 ==> r == Multi(st)
    ensures !(name == "MULTI" || name == "EXEC" || name == "DISCARD") ==> r == Serve(st, name, args, h)
  {
    if name == "MULTI" || name == "DISCARD" || name == "EXEC" then
      if |args| > 0 then (st, Raised(ArityFault(|args|)))
      else if name == "MULTI" then Multi(st)
      else if name == "DISCARD" then Discard(st)
      else Exec(st, h)
    else Serve(st, name, args, h)
  }

  /** `call_redis`: upper-case the name, invoke, and turn every exception
      except `CloseConnection` into one `-ERR` Response. MULTI inside an open
      transaction yields exactly the nesting error and changes nothing; a
      handler command leaves the session as it is and its failure becomes a
      single error chunk. */
  function Dispatch(st: State, cmd: Command, h: Handlers): (r: (State, Outcome))
    requires Valid(st) && |cmd| > 0
    ensures Valid(r.0) && Persists(st.reg, r.0.reg)
    ensures !r.1.Raised?
    ensures r.0.db == st.db && r.0.conn == st.conn
    ensures |st.out| <= |r.0.out| && r.0.out[..|st.out|] == st.out
    ensures Upcase(cmd[0]) == "MULTI" && |cmd| == 1 && st.multi.Some? ==>
      r == (st, Returned(Response([ErrorLine(NestingFault)])))
    ensures Upcase(cmd[0]) == "MULTI" && |cmd| == 1 && st.multi.None? ==>
      r == (st.(multi := Some([])), Returned(Response(OK)))
    ensures HandlerName(Upcase(cmd[0])) ==>
      && r.0 == st
      && r.1 == Rescue(if Upcase(cmd[0]) in h then h[Upcase(cmd[0])](cmd[1..])
                       else Raised(UnknownFault(Upcase(cmd[0]))))
  {
    var (st1, o) := Invoke(st, Upcase(cmd[0]), cmd[1..], h);
    (st1, Rescue(o))
  }

  /** A name served by the handler table rather than by the session. */
  predicate HandlerName(name: string)
  {
    name != "MULTI" && name != "EXEC" && name != "DISCARD" && name != "WATCH" && name != "UNWATCH"
  }

  /** A frame with a command name that is not queued: `call_redis`, then
      `send_redis` of its value. The boolean is true when the frame raised
      `CloseConnection`: nothing more is written and the connection closes at
      once only if the buffer was empty before the frame and the frame wrote
      nothing itself (the `*N` of an EXEC stays buffered). */
  function Act(st: State, frame: Command, h: Handlers, bufferEmpty: bool): (r: (State, bool))
    requires Valid(st) && |frame| > 0
    ensures Valid(r.0) && Persists(st.reg, r.0.reg)
    ensures |st.out| <= |r.0.out| && r.0.out[..|st.out|] == st.out
    ensures r.1 ==> r.0.conn == (if bufferEmpty && |r.0.out| == |st.out| then Closed else ClosingAfterWriting)
    ensures !r.1 ==> r.0.conn == st.conn
  {
    var (st1, o) := Dispatch(st, frame, h);
    if o.Close? then
      (st1.(conn := if bufferEmpty && |st1.out| == |st.out| then Closed else ClosingAfterWriting), true)
    else
      var st2 := Send(st1, o.v);
      assert st2.out[..|st.out|] == st1.out[..|st.out|];
      (st2, false)
  }

  /** One pass of the loop in `on_read`. The boolean is true when the loop
      stops: a frame with no command name (the exception escapes
      `call_redis` and one `-ERR` is written), or `CloseConnection`. While a
      transaction is open a non-exempt frame is queued and acknowledged;
      every other frame is acted on. */
  function Step(st: State, frame: Command, h: Handlers, bufferEmpty: bool): (r: (State, bool))
    requires Valid(st)
    ensures Valid(r.0) && Persists(st.reg, r.0.reg)
    ensures |st.out| <= |r.0.out| && r.0.out[..|st.out|] == st.out
    ensures st.multi.Some? && Queueable(frame) ==>
      r == (st.(multi := Some(st.multi.value + [frame]), out := st.out + Chunks(QUEUED)), false)
    ensures |frame| == 0 ==> r.1 && r.0 == st.(out := st.out + [Raw(ErrorLine(
      if st.multi.Some? then NilUpcaseFault else NoCommandFault))])
    ensures r.1 && |frame| > 0 ==>
      r.0.conn == (if bufferEmpty && |r.0.out| == |st.out| then Closed else ClosingAfterWriting)
    ensures !r.1 ==> r.0.conn == st.conn
  {
    if st.multi.Some? && |frame| == 0 then
      (st.(out := st.out + [Raw(ErrorLine(NilUpcaseFault))]), true)
    else if st.multi.Some? && !Exempt(Upcase(frame[0])) then
      (st.(multi := Some(st.multi.value + [frame]), out := st.out + Chunks(QUEUED)), false)
    else if |frame| == 0 then
      (st.(out := st.out + [Raw(ErrorLine(NoCommandFault))]), true)
    else
      Act(st, frame, h, bufferEmpty)
  }

  /** `on_read` over the frames the reader yields: frames are handled in
      arrival order until one stops the loop (the third component); the
      frames after it stay with the reader and are returned. `bufferEmpty`
      says whether the output buffer was empty when the read began; every
      chunk written during the read stays buffered until it ends, so a
      connection closes at once only if nothing was buffered before or
      during the read. */
  function OnRead(st: State, frames: seq<Command>, h: Handlers, bufferEmpty: bool)
    : (r: (State, seq<Command>, bool))
    requires Valid(st)
    ensures Valid(r.0) && Persists(st.reg, r.0.reg)
    ensures |st.out| <= |r.0.out| && r.0.out[..|st.out|] == st.out
    ensures !r.2 ==> r.1 == [] && r.0.conn == st.conn
    ensures r.2 ==> |r.1| < |frames|
    decreases |frames|
  {
    if frames == [] then (st, [], false)
    else
      var (st1, stop) := Step(st, frames[0], h, bufferEmpty);
      if stop then (st1, frames[1..], true)
      else
        var r := OnRead(st1, frames[1..], h, bufferEmpty && |st1.out| == |st.out|);
        assert r.0.out[..|st.out|] == r.0.out[..|st1.out|][..|st.out|];
        r
  }
}

=== FILE: replies.dfy ===
/** The reply side of the protocol: the canned `Response` chunks, the values a
    handler may hand back, the chunks written to the connection, and the
    decimal text of an integer reply. */
module Replies {
  import opened Basics

  /** A `Response` is a list of pre-encoded chunks written verbatim. */
  const OK: seq<string> := ["+OK\r\n"]
  const PONG: seq<string> := ["+PONG\r\n"]
  const NIL_MB: seq<string> := ["*-1\r\n"]
  const QUEUED: seq<string> := ["+QUEUED\r\n"]

  /** Identity of an asynchronous result (a Deferrable returned by a handler). */
  type Handle = nat

  /** Replies whose wire encoding belongs to the base sender: nil and every
      other plain value (strings, arrays, ...), kept abstract. */
  datatype Opaque = NilReply | Token(id: nat)

  /** What a handler returns. */
  datatype Value =
    | Response(items: seq<string>)   // raw chunks, written one by one
    | Integer(n: int)                // written as ":n\r\n"
    | Plain(p: Opaque)               // encoded by the base sender
    | Deferred(handle: Handle)       // a Deferrable: the reply comes later

  /** One write to the connection. */
  datatype Chunk = Raw(text: string) | Encoded(value: Opaque)

  /** A raised exception: its class name and its message. */
  datatype Fault = Fault(cls: string, msg: string)

  /** The one chunk an exception turns into: `-ERR <class>: <message>\r\n`. */
  function ErrorLine(f: Fault): (line: string)
    ensures |line| == 9 + |f.cls| + |f.msg| && line[..5] == "-ERR "
    ensures line[5..5 + |f.cls|] == f.cls && line[5 + |f.cls|..7 + |f.cls|] == ": "
    ensures line[7 + |f.cls|..|line| - 2] == f.msg
    ensures line[|line| - 2..] == "\r\n"
  {
    "-ERR " + f.cls + ": " + f.msg + "\r\n"
  }

  function DigitChar(d: nat): (c: char)
    requires d < 10
    ensures '0' <= c <= '9'
  {
    ('0' as int + d) as char
  }

  function DigitValue(c: char): nat
    requires '0' <= c <= '9'
  {
    c as int - '0' as int
  }

  predicate AllDigits(s: string)
  {
    forall i :: 0 <= i < |s| ==> '0' <= s[i] <= '9'
  }

  /** Decimal digits of a natural number, most significant first, with a
      leading zero only for zero itself. */
  function NatText(n: nat): (s: string)
    ensures |s| > 0 && AllDigits(s)
    ensures (s[0] == '0') == (n == 0)
    ensures n == 0 ==> s == "0"
    decreases n
  {
    if n < 10 then [DigitChar(n)] else NatText(n / 10) + [DigitChar(n % 10)]
  }

  /** The text `Integer#to_s` writes: `0`, or an optional minus sign and then
      digits that do not start with a zero (so never `-0` or `007`). */
  predicate Canonical(s: string)
  {
    if |s| > 0 && s[0] == '-' then |s| > 1 && AllDigits(s[1..]) && s[1] != '0'
    else |s| > 0 && AllDigits(s) && (s[0] == '0' ==> |s| == 1)
  }

  /** `Integer#to_s`: a minus sign for negative numbers, then the digits. */
  function Decimal(n: int): (s: string)
    ensures Canonical(s)
  {
    if n < 0 then
      var s := "-" + NatText(-n);
      assert s[1..] == NatText(-n);
      s
    else NatText(n)
  }

  /** Reads a non-empty run of decimal digits. */
  function DigitsValue(s: string): nat
    requires |s| > 0 && AllDigits(s)
    decreases |s|
  {
    if |s| == 1 then DigitValue(s[0])
    else DigitsValue(s[..|s| - 1]) * 10 + DigitValue(s[|s| - 1])
  }

  /** The inverse reading of `Decimal`: an optional minus sign, then digits. */
  function ParseDecimal(s: string): Option<int>
  {
    if |s| > 0 && s[0] == '-' then
      (if |s| > 1 && AllDigits(s[1..]) then Some(0 - DigitsValue(s[1..]) as int) else None)
    else if |s| > 0 && AllDigits(s) then Some(DigitsValue(s))
    else None
  }

  lemma {:induction false} NatTextRoundTrip(n: nat)
    ensures DigitsValue(NatText(n)) == n
    decreases n
  {
    if n >= 10 {
      var s := NatText(n);
      var prefix := NatText(n / 10);
      assert s == prefix + [DigitChar(n % 10)];
      assert s[..|s| - 1] == prefix;
      NatTextRoundTrip(n / 10);
    }
  }

  /** The integer written by an integer reply reads back as the same integer. */
  lemma DecimalRoundTrip(n: int)
    ensures ParseDecimal(Decimal(n)) == Some(n)
  {
    if n < 0 {
      NatTextRoundTrip(-n);
      assert ("-" + NatText(-n))[1..] == NatText(-n);
    } else {
      NatTextRoundTrip(n);
    }
  }

  /** A run of digits with no leading zero is the decimal text of the value
      it reads as. */
  lemma {:induction false} DigitsText(s: string)
    requires |s| > 0 && AllDigits(s) && (s[0] == '0' ==> |s| == 1)
    ensures NatText(DigitsValue(s)) == s
    decreases |s|
  {
    if |s| > 1 {
      var p := s[..|s| - 1];
      assert p[0] == s[0];
      assert AllDigits(p) by {
        forall i | 0 <= i < |p| ensures '0' <= p[i] <= '9' {
          assert p[i] == s[i];
        }
      }
      DigitsPositive(p);
      DigitsText(p);
      var a, b := DigitsValue(p), DigitValue(s[|s| - 1]);
      var v := a * 10 + b;
      assert v / 10 == a && v % 10 == b;
      assert DigitChar(b) == s[|s| - 1];
      assert s == p + [s[|s| - 1]];
    }
  }

  /** Digits that do not start with a zero read as a positive number. */
  lemma {:induction false} DigitsPositive(s: string)
    requires |s| > 0 && AllDigits(s) && s[0] != '0'
    ensures DigitsValue(s) >= 1
    decreases |s|
  {
    if |s| > 1 {
      var p := s[..|s| - 1];
      assert p[0] == s[0];
      assert AllDigits(p) by {
        forall i | 0 <= i < |p| ensures '0' <= p[i] <= '9' {
          assert p[i] == s[i];
        }
      }
      DigitsPositive(p);
    }
  }

  /** Canonical text is the only text of its value: whatever reads back as
      `n` and is canonical is exactly what `Integer#to_s` writes for `n`. */
  lemma CanonicalUnique(s: string, n: int)
    requires Canonical(s) && ParseDecimal(s) == Some(n)
    ensures s == Decimal(n)
  {
    if s[0] == '-' {
      var t := s[1..];
      DigitsPositive(t);
      DigitsText(t);
      assert n == 0 - DigitsValue(t) as int && n < 0;
      assert s == "-" + t;
    } else {
      DigitsText(s);
    }
  }

  /** The chunk `send_redis` writes for an Integer: its text is canonical
      and reads back as `n`, so by `CanonicalUnique` it is the decimal text
      of `n` and nothing else. */
  function IntegerLine(n: int): (line: string)
    ensures |line| >= 4 && line[0] == ':' && line[|line| - 2..] == "\r\n"
    ensures ParseDecimal(line[1..|line| - 2]) == Some(n)
    ensures Canonical(line[1..|line| - 2])
  {
    DecimalRoundTrip(n);
    var line := ":" + Decimal(n) + "\r\n";
    assert line[1..|line| - 2] == Decimal(n);
    line
  }

  /** The multi-bulk header EXEC writes before the queued replies: the
      integer line of the count with `*` in place of `:`, so the count reads
      back from it. */
  function CountLine(n: nat): (line: string)
    ensures |line| == |IntegerLine(n)| && line[0] == '*' && line[1..] == IntegerLine(n)[1..]
    ensures ParseDecimal(line[1..|line| - 2]) == Some(n)
    ensures Canonical(line[1..|line| - 2])
  {
    var line := "*" + Decimal(n) + "\r\n";
    assert line[1..] == IntegerLine(n)[1..];
    line
  }
}

=== FILE: scenarios.dfy ===
/** Whole sessions read by `on_read` from a fresh connection, for any
    handler table: the walks a client makes through WATCH, MULTI and EXEC. */
module Scenarios {
  import opened Basics
  import opened Replies
  import opened Watchers
  import opened Protocol
  import opened Properties

  lemma Names()
    ensures Upcase("MULTI") == "MULTI" && Upcase("EXEC") == "EXEC"
    ensures Upcase("WATCH") == "WATCH" && Upcase("UNWATCH") == "UNWATCH"
  {
    UpcaseOfUpper("MULTI");
    UpcaseOfUpper("EXEC");
    UpcaseOfUpper("WATCH");
    UpcaseOfUpper("UNWATCH");
  }

  /** `n` queued acknowledgements. */
  function Queued(n: nat): (r: seq<Chunk>)
    ensures |r| == n && forall i :: 0 <= i < n ==> r[i] == Raw("+QUEUED\r\n")
  {
    seq(n, _ => Raw("+QUEUED\r\n"))
  }

  /** A watcher whose token has fired. */
  predicate Stale(st: State)
  {
    st.watcher.Some? && st.watcher.value in st.reg.watchers && !st.reg.watchers[st.watcher.value].bound
  }

  /** A queueable frame inside a transaction: queued, acknowledged, and the
      loop reads on with the acknowledgement buffered. */
  lemma QueueStep(st: State, frames: seq<Command>, h: Handlers, bufferEmpty: bool)
    requires Valid(st) && st.multi.Some? && |frames| > 0 && Queueable(frames[0])
    ensures var st1 := st.(multi := Some(st.multi.value + [frames[0]]), out := st.out + [Raw("+QUEUED\r\n")]);
      Valid(st1) && OnRead(st, frames, h, bufferEmpty) == OnRead(st1, frames[1..], h, false)
  {
    QueueWhileOpen(st, frames[0], h, bufferEmpty);
  }

  /** MULTI outside a transaction: an empty queue, `+OK`, and the loop reads
      on with the `+OK` buffered. */
  lemma MultiStep(st: State, frames: seq<Command>, h: Handlers, bufferEmpty: bool)
    requires Valid(st) && st.multi.None? && |frames| > 0 && frames[0] == ["MULTI"]
    ensures var st1 := st.(multi := Some([]), out := st.out + [Raw("+OK\r\n")]);
      Valid(st1) && OnRead(st, frames, h, bufferEmpty) == OnRead(st1, frames[1..], h, false)
  {
    Names();
    OpenMulti(st, frames[0], h, bufferEmpty);
  }

  /** WATCH as the only frame on a fresh connection: `+OK` and a fresh live
      watcher listed under the key; nothing else changes. */
  lemma WatchOnly(db: nat, reg: Registry, key: string, h: Handlers, bufferEmpty: bool)
    requires Wf(reg)
    ensures var r := OnRead(Init(db, reg), [["WATCH", key]], h, bufferEmpty);
      && r.0 == Init(db, reg).(watcher := r.0.watcher, reg := r.0.reg, out := [Raw("+OK\r\n")])
      && !r.2 && r.0.watcher.Some? && r.0.watcher.value !in reg.watchers
      && r.0.reg.watchers[r.0.watcher.value].bound
      && Listed(r.0.reg, r.0.watcher.value, WatchKey(db, key))
  {
    Names();
    var frames: seq<Command> := [["WATCH", key]];
    WatchFresh(Init(db, reg), frames[0], h, bufferEmpty);
    assert frames[0][1..] == [key] && frames[1..] == [];
  }

  /** EXEC as the last frame after the watcher has fired: `*-1` only. */
  lemma StaleExec(st: State, frames: seq<Command>, h: Handlers, bufferEmpty: bool)
    requires Valid(st) && st.multi.Some? && Stale(st) && frames == [["EXEC"]]
    ensures var r := OnRead(st, frames, h, bufferEmpty);
      && r.0.out == st.out + [Raw("*-1\r\n")] && r.0.cancelled == st.cancelled
      && r.0.multi.None? && r.0.watcher.None? && !r.2
  {
    Names();
    ExecInvalidated(st, frames[0], h, bufferEmpty);
    assert frames[1..] == [];
  }

  /** The acknowledgement of one more queued frame joins the run before it. */
  lemma QueuedShift(out: seq<Chunk>, n: nat, tail: seq<Chunk>)
    requires n > 0
    ensures out + [Raw("+QUEUED\r\n")] + Queued(n - 1) + tail == out + Queued(n) + tail
  {
    assert Queued(n) == [Raw("+QUEUED\r\n")] + Queued(n - 1);
    ConcatAssoc(out, [Raw("+QUEUED\r\n")], Queued(n - 1));
  }

  /** One queued frame in front of an aborted EXEC. */
  lemma StaleQueued(st: State, q: seq<Command>, frames: seq<Command>, h: Handlers, bufferEmpty: bool)
    requires Valid(st) && st.multi.Some? && |q| > 0 && Queueable(q[0]) && frames == q + [["EXEC"]]
    requires var st1 := st.(multi := Some(st.multi.value + [q[0]]), out := st.out + [Raw("+QUEUED\r\n")]);
      var r1 := OnRead(st1, frames[1..], h, false);
      && r1.0.out == st1.out + Queued(|q| - 1) + [Raw("*-1\r\n")]
      && r1.0.cancelled == st.cancelled
      && r1.0.multi.None? && r1.0.watcher.None? && !r1.2
    ensures var r := OnRead(st, frames, h, bufferEmpty);
      && r.0.out == st.out + Queued(|q|) + [Raw("*-1\r\n")]
      && r.0.cancelled == st.cancelled
      && r.0.multi.None? && r.0.watcher.None? && !r.2
  {
    assert frames[0] == q[0];
    QueueStep(st, frames, h, bufferEmpty);
    QueuedShift(st.out, |q|, [Raw("*-1\r\n")]);
  }

  /** With a transaction open and the watcher fired, the queueable frames `q`
      and then EXEC are answered with one `+QUEUED` each and `*-1`: none of
      `q` runs, nothing is cancelled, and queue and watcher are gone. */
  lemma {:induction false} StaleTransaction(st: State, q: seq<Command>, frames: seq<Command>, h: Handlers, bufferEmpty: bool)
    requires Valid(st) && st.multi.Some? && Stale(st)
    requires (forall i :: 0 <= i < |q| ==> Queueable(q[i])) && frames == q + [["EXEC"]]
    ensures var r := OnRead(st, frames, h, bufferEmpty);
      && r.0.out == st.out + Queued(|q|) + [Raw("*-1\r\n")]
      && r.0.cancelled == st.cancelled
      && r.0.multi.None? && r.0.watcher.None? && !r.2
    decreases |q|
  {
    if q == [] {
      StaleExec(st, frames, h, bufferEmpty);
      assert Queued(0) == [];
    } else {
      var st1 := st.(multi := Some(st.multi.value + [q[0]]), out := st.out + [Raw("+QUEUED\r\n")]);
      assert frames[1..] == q[1..] + [["EXEC"]];
      StaleTransaction(st1, q[1..], frames[1..], h, false);
      StaleQueued(st, q, frames, h, bufferEmpty);
    }
  }

  /** MULTI, the queueable frames `q` and EXEC after the watcher has fired. */
  lemma AbortedTransaction(st: State, q: seq<Command>, frames: seq<Command>, h: Handlers, bufferEmpty: bool)
    requires Valid(st) && st.multi.None? && Stale(st)
    requires (forall i :: 0 <= i < |q| ==> Queueable(q[i])) && frames == [["MULTI"]] + q + [["EXEC"]]
    ensures var r := OnRead(st, frames, h, bufferEmpty);
      && r.0.out == st.out + [Raw("+OK\r\n")] + Queued(|q|) + [Raw("*-1\r\n")]
      && r.0.cancelled == st.cancelled
      && r.0.multi.None? && r.0.watcher.None? && !r.2
  {
    assert frames[0] == ["MULTI"] && frames[1..] == q + [["EXEC"]];
    MultiStep(st, frames, h, bufferEmpty);
    StaleTransaction(st.(multi := Some([]), out := st.out + [Raw("+OK\r\n")]), q, frames[1..], h, false);
  }

  /** UNWATCH twice on a fresh connection: `+OK` each time and no registry
      entry touched. */
  lemma UnwatchWithoutWatch(db: nat, reg: Registry, h: Handlers, bufferEmpty: bool)
    requires Wf(reg)
    ensures var r := OnRead(Init(db, reg), [["UNWATCH"], ["UNWATCH"]], h, bufferEmpty);
      && r.0.out == [Raw("+OK\r\n"), Raw("+OK\r\n")]
      && r.0.reg == reg && !r.2
  {
    Names();
    var frames: seq<Command> := [["UNWATCH"], ["UNWATCH"]];
    UnwatchTwice(Init(db, reg), frames[0], h, bufferEmpty);
    assert frames[1..] == [["UNWATCH"]] && frames[1..][1..] == [];
  }

  lemma CountOne()
    ensures CountLine(1) == "*1\r\n"
  {
  }

  lemma AppendTwo<T>(s: seq<T>, a: T, b: T)
    ensures s + [a] + [b] == s + [a, b]
  {
  }

  /** EXEC on a transaction that queued only WATCH, with no watcher held:
      `*1`, then the queued WATCH's `+OK`, the queue dropped, and the session
      as the WATCH left it. */
  lemma CommitQueuedWatch(st: State, key: string, h: Handlers)
    requires Valid(st) && st.watcher.None? && st.multi == Some([["WATCH", key]])
    ensures Exec(st, h) ==
      (Watch(st, [key]).0.(out := st.out + [Raw("*1\r\n"), Raw("+OK\r\n")], multi := None),
       Returned(Response([])))
  {
    Names();
    var c: Command := ["WATCH", key];
    assert c[1..] == [key];
    var st1 := st.(out := st.out + [Raw(CountLine(1))]);
    assert Unwatch(st) == st && st.multi.value == [c];
    assert Exec(st, h) == Commit(st, h);
    RoundWatch(st1, c, h);
    DrainSingle(st1, c, h);
    CountOne();
    var out := st.out + [Raw("*1\r\n"), Raw("+OK\r\n")];
    AppendTwo(st.out, Raw("*1\r\n"), Raw("+OK\r\n"));
    assert Watch(st1, [key]).0.(out := out) == Watch(st, [key]).0.(out := out);
    assert Drain(st1, [c], h) == (Watch(st, [key]).0.(out := out), false);
  }

  /** EXEC as a frame on that transaction: the loop goes on, and the session
      holds a fresh live watcher, created after EXEC's own release of the
      watcher and listed under the key. */
  lemma ExecQueuedWatch(st: State, key: string, h: Handlers, bufferEmpty: bool)
    requires Valid(st) && st.watcher.None? && st.multi == Some([["WATCH", key]])
    ensures var r := Step(st, ["EXEC"], h, bufferEmpty);
      && !r.1
      && r.0 == st.(multi := None, watcher := r.0.watcher, reg := r.0.reg,
                    out := st.out + [Raw("*1\r\n"), Raw("+OK\r\n")])
      && r.0.watcher.Some? && r.0.watcher.value !in st.reg.watchers
      && r.0.reg.watchers[r.0.watcher.value].bound
      && Listed(r.0.reg, r.0.watcher.value, WatchKey(st.db, key))
  {
    Names();
    CommitQueuedWatch(st, key, h);
    ExecFrame(st, ["EXEC"], h, bufferEmpty);
  }

  /** A read of one frame that does not stop is that frame's step. */
  lemma LastFrame(st: State, f: Command, h: Handlers, bufferEmpty: bool)
    requires Valid(st) && !Step(st, f, h, bufferEmpty).1
    ensures OnRead(st, [f], h, bufferEmpty) == (Step(st, f, h, bufferEmpty).0, [], false)
  {
    OnReadFirst(st, [f], h, bufferEmpty);
    assert [f][0] == f && [f][1..] == [];
  }

  lemma PairThenPair<T>(a: T, b: T, c: T, d: T)
    ensures [a, b] + [c, d] == [a, b, c, d]
  {
  }

  /** How the three frames of `WatchInsideTransaction` come apart. */
  lemma WatchFrames(key: string, frames: seq<Command>)
    requires frames == [["MULTI"], ["WATCH", key], ["EXEC"]]
    ensures frames[1..] == [["WATCH", key], ["EXEC"]] && frames[1..][0] == ["WATCH", key]
    ensures frames[1..][1..] == [["EXEC"]]
    ensures [] + [frames[1..][0]] == [["WATCH", key]]
  {
  }

  /** MULTI and a WATCH on a fresh connection: the WATCH is queued behind the
      `+OK` and `+QUEUED`, and the read goes on with them buffered. */
  lemma QueueWatch(db: nat, reg: Registry, key: string, h: Handlers, bufferEmpty: bool)
    requires Wf(reg)
    ensures var st := Init(db, reg).(multi := Some([["WATCH", key]]),
                                     out := [Raw("+OK\r\n"), Raw("+QUEUED\r\n")]);
      && Valid(st)
      && OnRead(Init(db, reg), [["MULTI"], ["WATCH", key], ["EXEC"]], h, bufferEmpty) ==
         OnRead(st, [["EXEC"]], h, false)
  {
    Names();
    var frames: seq<Command> := [["MULTI"], ["WATCH", key], ["EXEC"]];
    WatchFrames(key, frames);
    var st0 := Init(db, reg);
    MultiStep(st0, frames, h, bufferEmpty);
    var st1 := st0.(multi := Some([]), out := st0.out + [Raw("+OK\r\n")]);
    QueueStep(st1, frames[1..], h, false);
    var st2 := st1.(multi := Some(st1.multi.value + [frames[1..][0]]), out := st1.out + [Raw("+QUEUED\r\n")]);
    QueuedWatchState(st0, st1, st2, key);
  }

  /** The state after MULTI and a queued WATCH, written out. */
  lemma QueuedWatchState(st0: State, st1: State, st2: State, key: string)
    requires st0.multi.None? && st0.out == []
    requires st1 == st0.(multi := Some([]), out := st0.out + [Raw("+OK\r\n")])
    requires st2 == st1.(multi := Some(st1.multi.value + [["WATCH", key]]), out := st1.out + [Raw("+QUEUED\r\n")])
    ensures st2 == st0.(multi := Some([["WATCH", key]]), out := [Raw("+OK\r\n"), Raw("+QUEUED\r\n")])
  {
    var q: seq<Command> := [];
    assert q + [["WATCH", key]] == [["WATCH", key]];
    assert [] + [Raw("+OK\r\n")] + [Raw("+QUEUED\r\n")] == [Raw("+OK\r\n"), Raw("+QUEUED\r\n")];
  }

  /** MULTI, WATCH and EXEC on a fresh connection: `+OK`, `+QUEUED`, `*1` and
      the queued WATCH's `+OK`; nothing is cancelled, no queue is left, and
      the WATCH run inside EXEC leaves a fresh live watcher on the key. */
  lemma WatchInsideTransaction(db: nat, reg: Registry, key: string, h: Handlers, bufferEmpty: bool)
    requires Wf(reg)
    ensures var r := OnRead(Init(db, reg), [["MULTI"], ["WATCH", key], ["EXEC"]], h, bufferEmpty);
      && r.0.out == [Raw("+OK\r\n"), Raw("+QUEUED\r\n"), Raw("*1\r\n"), Raw("+OK\r\n")]
      && r.0.cancelled == [] && r.0.multi.None? && !r.2
      && r.0.watcher.Some? && r.0.watcher.value !in reg.watchers
      && r.0.reg.watchers[r.0.watcher.value].bound
      && Listed(r.0.reg, r.0.watcher.value, WatchKey(db, key))
  {
    QueueWatch(db, reg, key, h, bufferEmpty);
    var st := Init(db, reg).(multi := Some([["WATCH", key]]),
                             out := [Raw("+OK\r\n"), Raw("+QUEUED\r\n")]);
    ExecQueuedWatch(st, key, h, false);
    LastFrame(st, ["EXEC"], h, false);
    PairThenPair(Raw("+OK\r\n"), Raw("+QUEUED\r\n"), Raw("*1\r\n"), Raw("+OK\r\n"));
  }
}

=== FILE: watchers.dfy ===
/** `Redis::Watcher` and the shared watcher registry.

    A watcher is a token a connection registers under every key it WATCHes.
    The registry (`database.watchers`, one list of tokens per key and per
    database) is shared by every connection; whoever writes a key fires the
    tokens listed under it, and firing a token runs its `unbind`. A token that
    has been unbound is inert for good. */
module Watchers {
  import opened Basics

  type WatcherId = nat

  /** A `(database, key)` pair: the registry of database `db` under `key`. */
  datatype WatchKey = WatchKey(db: nat, key: string)

  /** One watcher token: the pairs it recorded, in order, and `bound`. */
  datatype Watcher = Watcher(watched: seq<WatchKey>, bound: bool)

  /** The shared registry, the watcher tokens by identity, and the next
      unused identity (standing in for object allocation). */
  datatype Registry = Registry(
    lists: map<WatchKey, seq<WatcherId>>,
    watchers: map<WatcherId, Watcher>,
    next: WatcherId)

  /** `w` is currently listed under `k` in the registry. */
  ghost predicate Listed(r: Registry, w: WatcherId, k: WatchKey)
  {
    k in r.lists && w in r.lists[k]
  }

  /** `w` is a live token that recorded `k`. */
  ghost predicate Watching(r: Registry, w: WatcherId, k: WatchKey)
  {
    w in r.watchers && r.watchers[w].bound && k in r.watchers[w].watched
  }

  /** Registry well-formedness, as kept by `bind` and `unbind`: identities are
      below `next`, no token records a pair twice, no token is listed twice
      under a key, and a token is listed under exactly the keys it watches
      while it is bound (and under none once it is unbound). */
  ghost predicate Wf(r: Registry)
  {
    && (forall w :: w in r.watchers ==> w < r.next)
    && (forall w :: w in r.watchers ==> Once(r.watchers[w].watched))
    && (forall k :: k in r.lists ==> Once(r.lists[k]))
    && (forall w, k :: Listed(r, w, k) <==> Watching(r, w, k))
  }

  /** Nothing done to the registry forgets a token or makes an unbound
      token live again. */
  ghost predicate Persists(r: Registry, r': Registry)
  {
    && r.next <= r'.next
    && (forall w :: w in r.watchers ==> w in r'.watchers)
    && (forall w :: w in r.watchers && !r.watchers[w].bound ==> !r'.watchers[w].bound)
  }

  /** `Watcher.new`: a fresh bound token that watches nothing. */
  function NewWatcher(r: Registry): (res: (Registry, WatcherId))
    requires Wf(r)
    ensures res.1 !in r.watchers
    ensures res.0.watchers == r.watchers[res.1 := Watcher([], true)]
    ensures res.0.lists == r.lists
    ensures Wf(res.0) && Persists(r, res.0)
  {
    var w := r.next;
    var r' := r.(watchers := r.watchers[w := Watcher([], true)], next := r.next + 1);
    forall v, k
      ensures Listed(r', v, k) <==> Watching(r', v, k)
    {
      if v == w {
        assert !Listed(r, w, k);
      } else {
        assert Listed(r', v, k) <==> Listed(r, v, k);
        assert Watching(r', v, k) <==> Watching(r, v, k);
      }
    }
    (r', w)
  }

  function ListUnder(lists: map<WatchKey, seq<WatcherId>>, k: WatchKey): seq<WatcherId>
  {
    if k in lists then lists[k] else []
  }

  /** One iteration of the loop in `bind`: record `k` unless already recorded,
      and push the token onto the registry list under `k`. */
  function BindKey(r: Registry, w: WatcherId, k: WatchKey): (r': Registry)
    requires w in r.watchers && r.watchers[w].bound
    ensures r'.next == r.next && r'.watchers.Keys == r.watchers.Keys
    ensures r'.watchers[w].bound
    ensures r'.watchers[w].watched ==
      if k in r.watchers[w].watched then r.watchers[w].watched else r.watchers[w].watched + [k]
    ensures forall v :: v in r.watchers && v != w ==> r'.watchers[v] == r.watchers[v]
  {
    if k in r.watchers[w].watched then r
    else
      r.(watchers := r.watchers[w := r.watchers[w].(watched := r.watchers[w].watched + [k])],
         lists := r.lists[k := ListUnder(r.lists, k) + [w]])
  }

  lemma BindKeyWf(r: Registry, w: WatcherId, k: WatchKey)
    requires Wf(r) && w in r.watchers && r.watchers[w].bound
    ensures Wf(BindKey(r, w, k))
  {
    if k !in r.watchers[w].watched {
      var r' := BindKey(r, w, k);
      assert !Listed(r, w, k);
      assert multiset(ListUnder(r.lists, k))[w] == 0;
      forall v, j
        ensures Listed(r', v, j) <==> Watching(r', v, j)
      {
        if j == k {
          assert r'.lists[k] == ListUnder(r.lists, k) + [w];
          assert Listed(r', v, j) <==> (Listed(r, v, j) || v == w);
        } else {
          assert Listed(r', v, j) <==> Listed(r, v, j);
        }
      }
    }
  }

  /** The loop of `bind` over the given keys, in order: the recorded pairs
      only grow at the end, by exactly the given keys not yet recorded. */
  function BindAll(r: Registry, w: WatcherId, db: nat, keys: seq<string>): (r': Registry)
    requires w in r.watchers && r.watchers[w].bound
    ensures r'.next == r.next && r'.watchers.Keys == r.watchers.Keys
    ensures r'.watchers[w].bound
    ensures |r.watchers[w].watched| <= |r'.watchers[w].watched|
    ensures r'.watchers[w].watched[..|r.watchers[w].watched|] == r.watchers[w].watched
    ensures forall k :: k in r'.watchers[w].watched <==>
      (k in r.watchers[w].watched || (k.db == db && k.key in keys))
    ensures forall v :: v in r.watchers && v != w ==> r'.watchers[v] == r.watchers[v]
    decreases |keys|
  {
    if keys == [] then r
    else
      var r1 := BindKey(r, w, WatchKey(db, keys[0]));
      var r' := BindAll(r1, w, db, keys[1..]);
      assert forall key :: key in keys <==> key == keys[0] || key in keys[1..];
      assert r'.watchers[w].watched[..|r.watchers[w].watched|]
          == r'.watchers[w].watched[..|r1.watchers[w].watched|][..|r.watchers[w].watched|];
      r'
  }

  lemma {:induction false} BindAllWf(r: Registry, w: WatcherId, db: nat, keys: seq<string>)
    requires Wf(r) && w in r.watchers && r.watchers[w].bound
    ensures Wf(BindAll(r, w, db, keys))
    decreases |keys|
  {
    if keys != [] {
      BindKeyWf(r, w, WatchKey(db, keys[0]));
      BindAllWf(BindKey(r, w, WatchKey(db, keys[0])), w, db, keys[1..]);
    }
  }

  /** `Watcher#bind`: an unbound token changes nothing; a bound token records
      each `(db, key)` pair at most once, appending the new ones in order, and
      every other token is untouched. */
  function Bind(r: Registry, w: WatcherId, db: nat, keys: seq<string>): (r': Registry)
    requires w in r.watchers
    ensures !r.watchers[w].bound ==> r' == r
    ensures r'.next == r.next && r'.watchers.Keys == r.watchers.Keys
    ensures r'.watchers[w].bound == r.watchers[w].bound
    ensures |r.watchers[w].watched| <= |r'.watchers[w].watched|
    ensures r'.watchers[w].watched[..|r.watchers[w].watched|] == r.watchers[w].watched
    ensures forall k :: k in r'.watchers[w].watched <==>
      (k in r.watchers[w].watched || (r.watchers[w].bound && k.db == db && k.key in keys))
    ensures forall v :: v in r.watchers && v != w ==> r'.watchers[v] == r.watchers[v]
  {
    if !r.watchers[w].bound then r else BindAll(r, w, db, keys)
  }

  /** `bind` keeps the registry well formed; in particular a token sits at
      most once in the list of any key, however often the key is repeated. */
  lemma BindWf(r: Registry, w: WatcherId, db: nat, keys: seq<string>)
    requires Wf(r) && w in r.watchers
    ensures Wf(Bind(r, w, db, keys))
    ensures Persists(r, Bind(r, w, db, keys))
    ensures forall k :: k in Bind(r, w, db, keys).lists ==> Once(Bind(r, w, db, keys).lists[k])
  {
    if r.watchers[w].bound {
      BindAllWf(r, w, db, keys);
    }
  }

  /** After `bind` on a live token, it is listed under every key it was given. */
  lemma BindLists(r: Registry, w: WatcherId, db: nat, keys: seq<string>)
    requires Wf(r) && w in r.watchers
    ensures r.watchers[w].bound ==>
      forall key :: key in keys ==> Listed(Bind(r, w, db, keys), w, WatchKey(db, key))
  {
    BindWf(r, w, db, keys);
    var r' := Bind(r, w, db, keys);
    forall key | key in keys && r.watchers[w].bound
      ensures Listed(r', w, WatchKey(db, key))
    {
      assert Watching(r', w, WatchKey(db, key));
    }
  }

  /** `delete_if { |e| e == self }`: drops every occurrence of `w` and keeps
      every other element with its multiplicity. */
  function Without(s: seq<WatcherId>, w: WatcherId): (r: seq<WatcherId>)
    ensures multiset(r) == multiset(s)[w := 0]
    ensures forall x :: x in r <==> x in s && x != w
    ensures w !in s ==> r == s
    decreases |s|
  {
    if s == [] then []
    else
      assert s == [s[0]] + s[1..];
      if s[0] == w then Without(s[1..], w)
      else [s[0]] + Without(s[1..], w)
  }

  /** The loop of `unbind` over the recorded pairs: each list that exists
      loses the token; keys with no list are skipped. */
  function Detach(lists: map<WatchKey, seq<WatcherId>>, w: WatcherId, keys: seq<WatchKey>)
    : (r: map<WatchKey, seq<WatcherId>>)
    ensures r.Keys == lists.Keys
    ensures forall k :: k in lists && k !in keys ==> r[k] == lists[k]
    ensures forall k :: k in lists && k in keys ==> r[k] == Without(lists[k], w)
    decreases |keys|
  {
    if keys == [] then lists
    else
      var lists1 := if keys[0] in lists then lists[keys[0] := Without(lists[keys[0]], w)] else lists;
      var r := Detach(lists1, w, keys[1..]);
      assert forall k :: k in lists && k in keys ==> r[k] == Without(lists[k], w) by {
        forall k | k in lists && k in keys
          ensures r[k] == Without(lists[k], w)
        {
          if k == keys[0] {
            assert lists1[k] == Without(lists[k], w);
          } else {
            assert k in keys[1..];
          }
        }
      }
      r
  }

  /** `Watcher#unbind`: a no-op on an unbound token; otherwise the token leaves
      the list of every pair it recorded, every other token in those lists
      stays (with its multiplicity), other keys are untouched, and the token
      becomes unbound. The recorded pairs themselves are kept. */
  function Unbind(r: Registry, w: WatcherId): (r': Registry)
    requires w in r.watchers
    ensures !r.watchers[w].bound ==> r' == r
    ensures r'.watchers == r.watchers[w := r.watchers[w].(bound := false)]
    ensures !r'.watchers[w].bound
    ensures r'.next == r.next && r'.lists.Keys == r.lists.Keys
    ensures forall k :: k in r.lists && k in r.watchers[w].watched && r.watchers[w].bound ==>
      w !in r'.lists[k]
    ensures forall k, v :: k in r.lists && v != w ==> multiset(r'.lists[k])[v] == multiset(r.lists[k])[v]
    ensures forall k :: k in r.lists && k !in r.watchers[w].watched ==> r'.lists[k] == r.lists[k]
  {
    if !r.watchers[w].bound then r
    else
      r.(lists := Detach(r.lists, w, r.watchers[w].watched),
         watchers := r.watchers[w := r.watchers[w].(bound := false)])
  }

  /** `unbind` keeps the registry well formed and leaves the token in no
      list at all. */
  lemma UnbindWf(r: Registry, w: WatcherId)
    requires Wf(r) && w in r.watchers
    ensures Wf(Unbind(r, w)) && Persists(r, Unbind(r, w))
    ensures forall k :: !Listed(Unbind(r, w), w, k)
  {
    var r' := Unbind(r, w);
    if r.watchers[w].bound {
      forall v, k
        ensures Listed(r', v, k) <==> Watching(r', v, k)
      {
        assert Watching(r', v, k) <==> Watching(r, v, k) && v != w;
        assert Listed(r, v, k) <==> Watching(r, v, k);
        if k in r.lists {
          if k in r.watchers[w].watched {
            assert v in r'.lists[k] <==> v in r.lists[k] && v != w;
          } else {
            assert r'.lists[k] == r.lists[k];
            assert Listed(r, w, k) ==> Watching(r, w, k);
          }
        }
      }
      forall k | k in r'.lists
        ensures Once(r'.lists[k])
      {
        assert forall x :: multiset(r'.lists[k])[x] <= multiset(r.lists[k])[x];
      }
    }
  }

  /** A second `unbind` of the same token changes nothing. */
  lemma UnbindIdempotent(r: Registry, w: WatcherId)
    requires w in r.watchers
    ensures Unbind(Unbind(r, w), w) == Unbind(r, w)
  {
  }
}
